=== FILE: README.md ===
# CineClaw video-generation client, modelled in Dafny

CineClaw is a two-script command-line client for the LTX-2 video-generation
service. Both scripts are called `ltx_generate.py`: one sits at the repository
root and one under `scripts/`. They differ in their argument syntax,
resolution handling, fallback prices, HTTP-error advice and media rules, so
each is modelled on its own:

| source | modules |
|---|---|
| `ltx_generate.py` | `RootPricing` (resolution aliases, cost table, `estimate_cost`), `RootRequest` (payload building and media validation in `generate_video`, `test_connection`, HTTP-error advice, output naming), `RootArgs` (the argument loop and dispatch of `main`) |
| `scripts/ltx_generate.py` | `ScriptPricing` (`COST_TABLE`, `estimate_cost`), `Multipart` (the multipart/form-data body of `api_request`), `ScriptApi` (how `api_request` encodes a request and classifies a reply, `test_connection`), `Polling` (`poll_generation`), `ScriptRequest` (validation, request data and response handling in `generate`, output path), `ScriptArgs` (the argument loop and dispatch of `main`) |
| shared helpers | `Common` (Option/Result, a JSON value, `dict.get`, the three modes), `PyText` (Python's `str.lower`, `str.strip`, `int()`, `str()` of an integer, `os.path.basename`), `Utf8` (`str.encode()`) |

Every price is an exact number of cents per second (0.02 dollars is 2 cents),
so costs are integers in cents. Python truthiness is written out: an empty
string is falsy for the camera motion, media paths, prompt, mode, job id and
video URL. A `sys.exit(1)` path becomes an error value (`Err`, or a failure
outcome). Network replies, the clock, the environment and the filesystem are
inputs:
- an HTTP exchange is a reply value (`Reply`, `TestReply`, `ApiReply`);
- the polling deadline is a budget of passing deadline tests;
- `os.path.exists` is a set of existing paths;
- file contents come from a read function;
- the home directory and the timestamp are strings.

The argument loops are methods (`RootArgs.ParseArgs`, `ScriptArgs.ParseArgs`)
that follow the source branch by branch. Each is proved equal to a fold of
per-token steps over the token list the loop visits. Lemmas then relate that
fold to independent reference definitions: the last occurrence of each option,
the last mode word, the first free word.

Where the code does something other than its usage text and comments suggest, the model follows the code:
- the root script reads HTTP 403 as "no credits" and the `scripts/` version reads 402;
- the root script returns normally (exit status 0) when the reply has an unexpected content type;
- the `scripts/` estimate does not normalise resolution aliases, so "4k" is priced at the 2-cent fallback.

## Model

| member | source | states |
|---|---|---|
| Common.ParseMode | ltx_generate.py:150-158 | exactly "t2v", "i2v" and "a2v" name a mode, and each mode is recognised by its own name |
| PyText.Lower | ltx_generate.py:68 | lower-casing keeps the length and maps every character by itself (A-Z and the Kelvin sign folded, the rest kept) |
| PyText.StripShape | ltx_generate.py:68 | every string is leading whitespace, its stripped form and trailing whitespace, and the stripped form neither starts nor ends with whitespace |
| PyText.StripUnique | ltx_generate.py:68 | stripping whitespace padding off a text that neither starts nor ends with whitespace gives back exactly that text |
| PyText.StripPadded | ltx_generate.py:68 | extra whitespace around a string does not change what `strip` returns |
| PyText.BasenameIsLastComponent | scripts/ltx_generate.py:60 | the base name is the suffix after the last '/', contains no '/', and is the whole path when there is no '/' |
| PyText.ParseIntToString | scripts/ltx_generate.py:57 | `int()` reads back every integer that `str()` writes with at most 4300 digits |
| PyText.ParseIntRejectsTooManyDigits | ltx_generate.py:339 | digit strings with more than 4300 digits (underscores not counted) are rejected, signed or not |
| PyText.DigitLimitBoundary | ltx_generate.py:339 | 4301 ones are rejected while 4300 ones are read |
| PyText.ParseIntPadded | ltx_generate.py:339 | `int()` ignores surrounding whitespace other than the information separators U+001C to U+001F |
| PyText.ParseIntRejectsInfoSeparator | ltx_generate.py:339 | an information separator anywhere in the text makes `int()` fail, even where `str.strip` would remove it |
| PyText.StripAndIntDisagree | ltx_generate.py:339 | "\x1c5" strips to "5" but is rejected by `int()` |
| PyText.ParseIntRejectsDoubleUnderscore | ltx_generate.py:339 | `int()` rejects every text with two underscores in a row, wherever they stand |
| PyText.NatToString | scripts/ltx_generate.py:57 | `str()` of a natural number is a non-empty string of decimal digits |
| Utf8.EncodeChar | scripts/ltx_generate.py:55-57 | a character takes 1, 2, 3 or 4 bytes by its code point range (below 0x80, 0x800, 0x10000, above); an ASCII character is its own code; the lead byte announces the length and every later byte is a continuation byte (0x80 to 0xBF) |
| Utf8.DecodeEncodeChar | scripts/ltx_generate.py:55-57 | reading the payload bits back out of a character's bytes gives its code point |
| Utf8.EncodeCharInjective | scripts/ltx_generate.py:55-57 | two different characters never encode to the same bytes |
| Utf8.EncodeAppend | scripts/ltx_generate.py:55-57 | encoding distributes over concatenation, so the joined parts encode the joined text |
| Utf8.EncodeAscii | scripts/ltx_generate.py:55-57 | ASCII text encodes byte for byte |
| RootPricing.ResolveResolution | ltx_generate.py:67-73 | succeeds exactly when the lower-cased, stripped input is a known alias, always with one of the three canonical resolutions, and otherwise fails naming the input |
| RootPricing.CanonicalResolvesToItself | ltx_generate.py:31-43 | each canonical resolution is an alias of itself |
| RootPricing.ResolveIdempotent | ltx_generate.py:67-73 | resolving a resolved value returns it unchanged |
| RootPricing.ResolveIgnoresPadding | ltx_generate.py:68 | whitespace around the input never changes whether or how it resolves |
| RootPricing.UpperCaseAlias | ltx_generate.py:67-70 | "4K" resolves to 3840x2160 (case-insensitive) |
| RootPricing.PaddedAlias | ltx_generate.py:67-70 | " uhd " resolves to 3840x2160 |
| RootPricing.TableKeysResolve | ltx_generate.py:31-43 | every alias in the table, as listed, resolves to its own entry (so "2160p" gives 3840x2160) |
| RootPricing.RejectsUnknownResolution | ltx_generate.py:71-73 | "720p" is rejected as an unknown resolution |
| RootPricing.Rate | ltx_generate.py:78 | the table rate for a listed model and resolution, 5 cents per second otherwise |
| RootPricing.EstimateCost | ltx_generate.py:76-79 | fails exactly when the resolution does not resolve; otherwise it reports the resolved resolution, its rate, and total = rate × duration |
| RootPricing.EstimateAfterResolve | ltx_generate.py:76-78 | estimating with an already resolved resolution gives the same estimate as with the alias |
| RootPricing.EstimateCanonical | ltx_generate.py:76-79 | a canonical resolution always prices, at rate × duration |
| RootPricing.RateTable | ltx_generate.py:46-49 | the six table rates in cents (2/4/8 fast, 5/10/20 pro) and 5 for any other model |
| RootPricing.ProFourKTenSeconds | ltx_generate.py:76-79 | ten seconds of "4k" on the pro model cost 200 cents at 20 per second |
| RootRequest.BuildSubmission | ltx_generate.py:149-200 | an unknown mode is rejected; otherwise the endpoint is the mode's own, text requests always pass, image requests pass exactly when an http image is given, audio requests pass exactly when the audio is absent or http |
| RootRequest.A2vPayloadFixed | ltx_generate.py:173-183 | an audio payload names ltx-2-pro at 1920x1080, keeps the prompt, has no duration, fps or generate_audio keys, and has audio_url exactly when audio was given |
| RootRequest.A2vIgnoresOverrides | ltx_generate.py:173-180 | the caller's model, duration, resolution, fps and audio toggle do not affect an audio payload |
| RootRequest.A2vAudioOptional | ltx_generate.py:181-187 | audio mode without audio is accepted with no audio_url; a non-http audio reference is rejected |
| RootRequest.I2vImageChecked | ltx_generate.py:189-200 | image mode without an image, or with a non-http one, is rejected; an http image is sent as image_url |
| RootRequest.CameraKeyIffSupplied | ltx_generate.py:170-171 | camera_motion is in the payload exactly when a non-empty camera motion was supplied, with its value |
| RootRequest.CommonFieldsKept | ltx_generate.py:160-168 | text and image payloads carry the caller's prompt, model, duration, resolution, fps and audio toggle |
| RootRequest.T2vKeys | ltx_generate.py:160-171 | a text payload has exactly the six common keys, plus camera_motion when supplied |
| RootRequest.EstimateFromCaller | ltx_generate.py:203-205 | the printed estimate prices the caller's model and resolution (5-cent fallback) over the duration, or over ten seconds in audio mode |
| RootRequest.A2vEstimateBelowPro | ltx_generate.py:203-205 | an audio request on the fast model is estimated at 20 cents, while its payload asks for the pro model, which would cost 50 |
| RootRequest.TestConnection | ltx_generate.py:111-140 | success, 422 and 429 count as reachable; 401, 403, any other code and a connection failure do not |
| RootRequest.ErrorHint | ltx_generate.py:270-277 | the advice is "bad key" exactly for 401, "no credits" for 403, "rate limited" for 429, "bad parameters" for 422 |
| RootRequest.OutputFile | ltx_generate.py:243-248 | a non-empty output path is the one written to; otherwise the file is `cineclaw-<mode>-<timestamp>.mp4` in the output directory |
| RootRequest.DefaultPathsDistinct | ltx_generate.py:245-248 | without an output path, runs at different timestamps write to different files |
| RootRequest.DefaultNamesDistinct | ltx_generate.py:247-248 | different timestamps give different default file names |
| RootRequest.HandleReply | ltx_generate.py:230-281 | the video is saved, with the reply's bytes, exactly when the reply has a video or octet-stream content type, and it goes to the output file (given path or default name); any other body is an unexpected-content warning naming its type; an HTTP error whose message can be read becomes a failure with the code's advice, and one whose body is a JSON document without a readable error object crashes before any advice; a transport failure is a connection failure |
| RootRequest.ExitZeroIffBody | ltx_generate.py:230-281 | the run exits with status 0 exactly when the service answered with a body, whatever its content type |
| RootRequest.StringErrorSkipsAdvice | ltx_generate.py:263-268 | an error body like `{"error": "Unauthorized"}` stops the run before the bad-key advice, even for 401 |
| RootRequest.ExitStatus | ltx_generate.py:235-281 | the run ends with status 0 exactly when the video was saved or the content type was unexpected |
| RootRequest.HttpErrorsAreFatal | ltx_generate.py:260-278 | every HTTP error exits with status 1, whatever its body; when the message can be read, 401 gives the bad-key advice and 403 the no-credits advice, and otherwise no advice is given |
| RootArgs.ValueOptionOf | ltx_generate.py:335-365 | recognises exactly the eight value-option names |
| RootArgs.Width | ltx_generate.py:330-373 | each step consumes one or two arguments, never beyond the end, and two exactly when a value option has a following argument |
| RootArgs.Step | ltx_generate.py:332-373 | one pass of the loop body: it moves on by the token's width and applies that token's effect |
| RootArgs.ParseArgs | ltx_generate.py:330-373 | the loop ends with the fold of the visited tokens' effects, or with the first conversion failure |
| RootArgs.FoldFailureSticks | ltx_generate.py:339 | once a value fails to convert, later arguments change nothing |
| RootArgs.FoldTextOptions | ltx_generate.py:335-365 | model, camera, image, audio and output each hold their last occurrence's value, or the default |
| RootArgs.FoldDuration | ltx_generate.py:338-340 | the duration is the integer read from the last --duration value, or the default |
| RootArgs.FoldFps | ltx_generate.py:344-346 | the frame rate is the integer read from the last --fps value, or the default |
| RootArgs.FoldResolution | ltx_generate.py:341-343 | the resolution is the last --resolution value resolved, or the default |
| RootArgs.FoldKeepsCanonical | ltx_generate.py:341-343 | the resolution setting is always canonical |
| RootArgs.FoldModeAndPrompt | ltx_generate.py:366-371 | the mode is the last mode word; the prompt is the first free word (not starting with "--") |
| RootArgs.FoldFlags | ltx_generate.py:332-356 | --estimate sets the estimate flag and --no-audio clears audio generation, wherever they occur |
| RootArgs.DanglingOptionSkipped | ltx_generate.py:372-373 | a value option in last position is skipped and changes nothing |
| RootArgs.ValueConsumesNext | ltx_generate.py:335-337 | a value option with an argument after it takes that argument and moves on by two |
| RootArgs.Run | ltx_generate.py:285-400 | no arguments shows usage; with arguments, a missing key stops the run; then `--test` first runs the connection test and nothing else; otherwise the arguments are parsed, and: a conversion failure happens exactly when the parse fails, with its error; the estimate is shown exactly when the parse succeeds with --estimate, pricing the parsed model, resolution and duration; a missing mode, then a missing prompt, stops the run exactly when the parse succeeds without --estimate and lacks it; a generation happens only after a successful parse with mode and prompt, and its request carries exactly the parsed settings |
| RootArgs.EstimateNeverFails | ltx_generate.py:375-377 | the estimate path never hits an unknown resolution, since the setting is always canonical |
| RootArgs.GenerateModeKnown | ltx_generate.py:379-400 | a generation is only ever started with one of the three modes |
| ScriptPricing.Rate | scripts/ltx_generate.py:124 | the table rate for a listed pair, 2 cents per second otherwise |
| ScriptPricing.EstimateCost | scripts/ltx_generate.py:123-133 | total = rate × duration with the resolution taken as given and the 2-cent fallback |
| ScriptPricing.AliasNotNormalised | scripts/ltx_generate.py:124 | "4k" is not looked up as 3840x2160: pro at "4k" costs 2 per second, pro at 3840x2160 costs 20 |
| ScriptPricing.TablesAgree | scripts/ltx_generate.py:30-33 | on canonical resolutions the two scripts' tables list the same models at the same rates; they differ only in the fallback (2 against 5) |
| ScriptPricing.CostMonotone | scripts/ltx_generate.py:123-125 | a longer duration never costs less, and each extra second costs at least a cent |
| Multipart.BuildBody | scripts/ltx_generate.py:52-72 | the part-by-part loop produces the body: data parts, then file parts, then the closing delimiter |
| Multipart.DataParts | scripts/ltx_generate.py:54-57 | one data part per field, in insertion order |
| Multipart.FileParts | scripts/ltx_generate.py:59-69 | one file part per upload, in order |
| Multipart.DataPartAt | scripts/ltx_generate.py:54-57 | the first parts of the body are the data fields' parts, in order |
| Multipart.FilePartAt | scripts/ltx_generate.py:59-69 | the file parts follow all data parts, in order |
| Multipart.BodyIsParts | scripts/ltx_generate.py:71-72 | the body is the joined parts followed by the closing delimiter |
| Multipart.PartOpensWithDelimiter | scripts/ltx_generate.py:55 | every part begins with "--" + boundary + CRLF |
| Multipart.BodyFraming | scripts/ltx_generate.py:52-72 | a body with parts opens with the delimiter, one without parts is the closing delimiter alone, and every body ends with "--" + boundary + "--" + CRLF |
| Multipart.FileNameIsBasename | scripts/ltx_generate.py:60 | the file name a file part declares (the base name of its path) contains no '/' and is the path's last component |
| Multipart.NumberFieldRoundTrip | scripts/ltx_generate.py:57 | a number field's text reads back as the same integer, for every integer within the 4300-digit limit |
| Multipart.HeaderNamesBoundary | scripts/ltx_generate.py:75 | the Content-Type header names the same boundary the body uses |
| Multipart.FixedBoundaryValid | scripts/ltx_generate.py:51 | the fixed boundary meets the boundary syntax of section 5.1.1 of RFC 2046 |
| ScriptApi.Prepare | scripts/ltx_generate.py:49-81 | multipart exactly when files are given, always as a POST with the body and a header naming its boundary; JSON exactly for a POST with data and no files; otherwise no body and the method as asked |
| ScriptApi.UploadsArePosted | scripts/ltx_generate.py:74 | a file upload is always sent as a POST |
| ScriptApi.GetHasNoBody | scripts/ltx_generate.py:80-81 | a GET carries no body even with data |
| ScriptApi.ErrorHint | scripts/ltx_generate.py:92-97 | advice for 401 (bad key), 402 (credits) and 429 (rate limit) exactly |
| ScriptApi.ApiResult | scripts/ltx_generate.py:86-101 | only an answered request yields its document, unchanged; an HTTP error fails with the code and its advice; a transport failure is a connection failure |
| ScriptApi.HintsAgreeOutsideCreditCodes | scripts/ltx_generate.py:92-97 | for every status other than 402, 403 and 422, both scripts give the bad-key advice, the rate-limit advice or none alike |
| ScriptApi.CreditCodesDiffer | scripts/ltx_generate.py:94 | this script reads 402 as "no credits" and 403 as nothing, the root script the other way round |
| ScriptApi.TestConnection | scripts/ltx_generate.py:104-120 | reachable exactly when the health request succeeds; the bad-key advice exactly for 401 |
| ScriptApi.TestStricterThanRoot | scripts/ltx_generate.py:113-117 | whatever this test accepts the root test accepts too, and 422 or 429 pass only the root test |
| Polling.PollFrom | scripts/ltx_generate.py:139-154 | the first non-pending reply decides (completed returns the result, failed or error gives the job's error or "Unknown error", an HTTP failure stops); every earlier reply was pending; running out of budget is a time-out after exactly that many queries |
| Polling.PollGeneration | scripts/ltx_generate.py:136-154 | the query loop ends with the outcome the polling definition gives |
| Polling.ZeroBudgetNoQuery | scripts/ltx_generate.py:139 | with no time left no status is queried |
| Polling.MissingStatusKeepsPolling | scripts/ltx_generate.py:141 | a reply without a status reads as "unknown" and polling goes on |
| Polling.LaterRepliesIgnored | scripts/ltx_generate.py:139-147 | replies after the deciding one never matter |
| Polling.MoreBudgetSameDecision | scripts/ltx_generate.py:139-151 | more time never changes an outcome that was decided before the deadline |
| ScriptRequest.PlanRequest | scripts/ltx_generate.py:171-229 | audio always runs on the pro model and the estimate prices the model used; an unknown mode is rejected; text always passes without files; image and audio pass exactly when the file is given and exists, and an image request uploads it |
| ScriptRequest.AudioPlanFixed | scripts/ltx_generate.py:213-226 | audio data is exactly the caller's prompt, "ltx-2-pro", "1920x1080" (no duration, fps or seed), with the audio file as the upload |
| ScriptRequest.PlanEndpoint | scripts/ltx_generate.py:181-222 | text, image and audio requests post to text-to-video, image-to-video and audio-to-video respectively |
| ScriptRequest.VideoDataFields | scripts/ltx_generate.py:181-210 | text and image data are prompt, model, resolution, duration, fps in that order, plus seed exactly when one was given |
| ScriptRequest.MediaChecked | scripts/ltx_generate.py:194-219 | a missing image or audio path, or one that does not exist, is rejected with its own error |
| ScriptRequest.UploadedFilePart | scripts/ltx_generate.py:59-69 | the k-th planned file is the body part right after all data parts, declaring its key and its path's base name, and carrying exactly the bytes read from that path |
| ScriptRequest.SubmissionEncoding | scripts/ltx_generate.py:236 | the submission is a POST: text requests go as JSON, image and audio requests as multipart |
| ScriptRequest.VideoFrom | scripts/ltx_generate.py:242-253 | a video is found exactly when the reply has a truthy video_url |
| ScriptRequest.HandleSubmission | scripts/ltx_generate.py:238-253 | a completed reply is used directly; otherwise a job id leads to polling and its completed result is used, and without an id the response is unexpected |
| ScriptRequest.MissingStatusMeansProcessing | scripts/ltx_generate.py:239 | a reply without a status is treated as still processing: polled when it has an id, unexpected otherwise |
| ScriptRequest.VideoHasUrl | scripts/ltx_generate.py:241-253 | a found video always has a truthy URL, taken from the submission reply or from one of the polled replies |
| ScriptRequest.Conclude | scripts/ltx_generate.py:267-271 | the estimate is reported when the reply has no cost; a numeric or boolean cost is reported as sent; any other cost crashes the cost line |
| ScriptRequest.ReportStatus | scripts/ltx_generate.py:263-272 | a run that found its video exits with status 0 exactly when the download succeeded and the cost line did not crash, and with status 1 otherwise |
| ScriptRequest.FoundVideoStatus | scripts/ltx_generate.py:238-275 | once a video is found, a failed download always ends with status 1; after a successful one the run exits cleanly whenever the final reply has no cost, and otherwise exactly when that cost is a number or a boolean |
| ScriptRequest.JoinPath | scripts/ltx_generate.py:262 | an empty directory gives the name alone; otherwise the path is the directory, a '/' unless it already ends with one, then the name |
| ScriptRequest.AudioFileNamesProModel | scripts/ltx_generate.py:261 | an audio run's file is labelled with ltx-2-pro |
| ScriptRequest.OutputPathEndsWithName | scripts/ltx_generate.py:256-262 | the output path ends with the generated file name |
| ScriptArgs.ValueOptionOf | scripts/ltx_generate.py:325-354 | recognises exactly the ten value-option names |
| ScriptArgs.Width | scripts/ltx_generate.py:323-359 | each step consumes one or two arguments, never beyond the end, and two exactly when a value option has a following argument |
| ScriptArgs.Step | scripts/ltx_generate.py:325-359 | one pass of the loop body: it moves on by the token's width and applies that token's effect |
| ScriptArgs.ParseArgs | scripts/ltx_generate.py:323-359 | the loop ends with the fold of the visited tokens' effects, or with the first conversion failure |
| ScriptArgs.FoldFailureSticks | scripts/ltx_generate.py:338 | once a value fails to convert, later arguments change nothing |
| ScriptArgs.FoldTextOptions | scripts/ltx_generate.py:325-354 | mode, prompt, model, resolution, image, audio and output each hold their last occurrence's value, or the default |
| ScriptArgs.FoldNumbers | scripts/ltx_generate.py:337-345 | duration, fps and seed hold the integer read from their last occurrence, or the default |
| ScriptArgs.FoldEstimate | scripts/ltx_generate.py:355-357 | the estimate flag is set exactly when --estimate occurs |
| ScriptArgs.SkippedTokenIgnored | scripts/ltx_generate.py:358-359 | an unrecognised argument changes nothing |
| ScriptArgs.Run | scripts/ltx_generate.py:279-376 | no arguments shows usage; a missing key stops the run; then `--test` first runs the connection test and nothing else; otherwise the arguments are parsed, and: a conversion failure happens exactly when the parse fails, with its error; the estimate is shown exactly when the parse succeeds with --estimate; a missing mode, then a missing prompt, stops the run exactly when the parse succeeds without --estimate and lacks it; a generation happens only after a successful parse with mode and prompt, and its arguments are exactly the parsed settings |
| ScriptArgs.EstimateDefaultsMode | scripts/ltx_generate.py:361-365 | an estimate defaults the mode to t2v and prices the parsed model, resolution and duration |
| ScriptArgs.NoModeNoGeneration | scripts/ltx_generate.py:367-369 | without a mode (and not estimating) the run stops with the missing-mode error |

## Left out

- HTTP transport, request headers and JSON encoding and decoding: replies are inputs, and a decoded reply is a map from keys to JSON values. A reply that decodes to something other than a JSON object is not modelled.
- The clock and `time.sleep` in `poll_generation`: the deadline is a budget that counts the deadline tests that pass. The elapsed-time display is not modelled.
- Printing and float formatting (`:.2f`, `:.3f`), except that the final cost line fails on a non-numeric cost: costs are exact integer cents, and the estimate functions return their numbers instead of printing them.
- `datetime.now`, `Path.home`, `os.makedirs`, `ensure_output_dir`, `download_video`, `write_bytes` and file reads: timestamps, the home directory, file contents and existence, and whether `download_video` returned, are inputs. The transfer itself is not modelled, nor which `video_url` values urllib accepts (a non-string or scheme-less URL counts as a failed download).
- `get_token` / `get_api_key`: the environment lookup is a string parameter; an empty key stops the run.
- Camera-motion warning (`CAMERA_MOTIONS`): it only prints, and the motion is kept either way.
- The job-status URL `/generations/{gen_id}`: a polled reply is an input, whatever the id.
- The submission `api_request` of `generate` failing: `ScriptApi.ApiResult` covers every call, so `ScriptRequest.HandleSubmission` starts from a decoded reply.
- PyText.Lower: folds only characters whose Python lower-case form is ASCII (A-Z and the Kelvin sign); that is all the alias table needs.
- PyText.ParseIntPadded: `int()` on non-ASCII decimal digits is not modelled; such text is rejected.
- PyText.ParseInt: the 4300-digit limit is Python's default; a limit changed with `PYTHONINTMAXSTRDIGITS` or `-X int_max_str_digits`, and older Pythons without any limit, are not modelled.
- Utf8.Encode: strings are sequences of Unicode scalar values. On POSIX, `sys.argv` turns bytes that are not UTF-8 into lone surrogates, and `.encode()` of such a prompt or file name in the multipart body of an image or audio upload raises; that failure is not modelled, and the body always builds.
- PyText.BasenameIsLastComponent: POSIX paths only (`/` is the one separator).
- ScriptRequest.JoinPath: POSIX join of a directory and a relative name; an absolute file name (which `os.path.join` would return alone) cannot arise, because the name starts with "output-".
- RootRequest.HandleReply: the saved file's bytes are a sequence of integers; the actual write is not modelled. The printed error message is not modelled either, only whether it can be looked up.
- RootRequest.OutputFile: an explicit path goes through `Path()`, which drops `.` components, repeated and trailing slashes before the file is written and reported; the model returns the path as the caller wrote it.
- ScriptRequest.Conclude: JSON numbers are integers in this model, so a fractional cost is a number like any other; the video is already on disk when the cost line crashes.

=== FILE: common.dfy ===
/** Values shared by both command-line scripts: failure-carrying wrappers,
    the decoded-JSON values the service sends back, Python truthiness, and
    the three generation modes. */
module Common {

  datatype Option<+T> = None | Some(value: T)

  datatype Result<+T, +E> = Ok(value: T) | Err(error: E)

  /** A decoded JSON value. Numbers are kept as integers: the only numbers
      the model inspects are status codes, durations, frame rates and seeds. */
  datatype Json =
    | JNull
    | JBool(b: bool)
    | JNum(n: int)
    | JStr(s: string)
    | JArr(items: seq<Json>)
    | JObj(fields: map<string, Json>)

  /** Python truthiness of a decoded JSON value (`if x:`). */
  predicate Truthy(j: Json) {
    match j
    case JNull => false
    case JBool(b) => b
    case JNum(n) => n != 0
    case JStr(s) => s != ""
    case JArr(items) => |items| > 0
    case JObj(fields) => |fields| > 0
  }

  /** How a connectivity test request came back: answered with a status,
      refused with an HTTP error code, or not delivered at all. */
  datatype TestReply = TestSucceeded(status: int) | TestHttpError(code: int) | TestUnreachable

  /** Truthiness of an optional string: `None` and `""` are both false. */
  predicate StrTruthy(o: Option<string>) {
    o.Some? && o.value != ""
  }

  /** `d.get(key, default)` on a decoded JSON object. */
  function Get(obj: map<string, Json>, key: string, default: Json): (r: Json)
    ensures key in obj ==> r == obj[key]
    ensures key !in obj ==> r == default
  {
    if key in obj then obj[key] else default
  }

  /** The three generation modes; both scripts spell them the same way. */
  datatype Mode = T2V | I2V | A2V

  /** The command-line spelling of a mode. */
  function ModeName(m: Mode): (s: string)
    ensures s == "t2v" || s == "i2v" || s == "a2v"
  {
    match m
    case T2V => "t2v"
    case I2V => "i2v"
    case A2V => "a2v"
  }

  /** Recognises a mode name; it is the inverse of `ModeName`. */
  function ParseMode(s: string): (r: Option<Mode>)
    ensures r.Some? <==> (s == "t2v" || s == "i2v" || s == "a2v")
    ensures r.Some? ==> ModeName(r.value) == s
    ensures forall m :: s == ModeName(m) ==> r == Some(m)
  {
    if s == "t2v" then Some(T2V)
    else if s == "i2v" then Some(I2V)
    else if s == "a2v" then Some(A2V)
    else None
  }
}

=== FILE: multipart.dfy ===
/** The multipart/form-data body `api_request` in `scripts/ltx_generate.py`
    builds when it uploads a file (RFC 7578), with the delimiter lines of
    section 5.1.1 of RFC 2046. File contents are an input. */
module Multipart {
  import opened Common
  import opened PyText
  import opened Utf8

  const Boundary := "----CineClawBoundary"
  const Crlf := "\r\n"
  const HeaderPrefix := "multipart/form-data; boundary="

  /** A value of the request's data dictionary: text, or an integer that
      `f"{value}"` renders in decimal. */
  datatype FieldValue = Text(text: string) | Number(n: int)

  function Render(v: FieldValue): string {
    match v
    case Text(t) => t
    case Number(n) => IntToString(n)
  }

  /** One entry of the data dictionary, in insertion order. */
  datatype Field = Field(name: string, value: FieldValue)

  /** One entry of the files dictionary, with the bytes read from `path`. */
  datatype Upload = Upload(name: string, path: string, content: seq<byte>)

  /** The line that opens every part. */
  function Delimiter(b: string): string {
    "--" + b + Crlf
  }

  /** The line that ends the body. */
  function CloseDelimiter(b: string): string {
    "--" + b + "--" + Crlf
  }

  function DataDisposition(name: string): string {
    "Content-Disposition: form-data; name=\"" + name + "\"" + Crlf + Crlf
  }

  function FileDisposition(name: string, fileName: string): string {
    "Content-Disposition: form-data; name=\"" + name + "\"; filename=\"" + fileName + "\"" + Crlf
  }

  const OctetStream := "Content-Type: application/octet-stream" + Crlf + Crlf
  const OctetStreamBytes: seq<byte> := Encode(OctetStream)

  /** The bytes of one data part. */
  function DataPart(b: string, f: Field): seq<byte> {
    Encode(Delimiter(b)) + Encode(DataDisposition(f.name)) + Encode(Render(f.value) + Crlf)
  }

  /** The bytes of one file part: only the file's base name is sent. */
  function FilePart(b: string, u: Upload): seq<byte> {
    Encode(Delimiter(b)) + Encode(FileDisposition(u.name, Basename(u.path)))
      + OctetStreamBytes + u.content + Encode(Crlf)
  }

  /** The data parts in insertion order. */
  function DataSection(b: string, fields: seq<Field>): seq<byte>
    decreases |fields|
  {
    if fields == [] then [] else DataSection(b, fields[..|fields| - 1]) + DataPart(b, fields[|fields| - 1])
  }

  /** The file parts in insertion order. */
  function FileSection(b: string, uploads: seq<Upload>): seq<byte>
    decreases |uploads|
  {
    if uploads == [] then [] else FileSection(b, uploads[..|uploads| - 1]) + FilePart(b, uploads[|uploads| - 1])
  }

  /** The whole body: every data part, then every file part, then the
      closing delimiter. */
  function Body(b: string, fields: seq<Field>, uploads: seq<Upload>): seq<byte> {
    DataSection(b, fields) + FileSection(b, uploads) + Encode(CloseDelimiter(b))
  }

  /** `b"".join(parts)` */
  function Join(parts: seq<seq<byte>>): seq<byte>
    decreases |parts|
  {
    if parts == [] then [] else Join(parts[..|parts| - 1]) + parts[|parts| - 1]
  }

  /** The Content-Type header sent with the body. */
  function ContentTypeHeader(b: string): string {
    HeaderPrefix + b
  }

  /** The boundary parameter a receiver reads back from the header. */
  function HeaderBoundary(h: string): Option<string> {
    if StartsWith(h, HeaderPrefix) then Some(h[|HeaderPrefix|..]) else None
  }

  lemma JoinSnoc(parts: seq<seq<byte>>, x: seq<byte>)
    ensures Join(parts + [x]) == Join(parts) + x
  {
    assert (parts + [x])[..|parts|] == parts;
  }

  lemma JoinThree(parts: seq<seq<byte>>, x: seq<byte>, y: seq<byte>, z: seq<byte>)
    ensures Join(parts + [x] + [y] + [z]) == Join(parts) + (x + y + z)
  {
    JoinSnoc(parts, x);
    JoinSnoc(parts + [x], y);
    JoinSnoc(parts + [x] + [y], z);
  }

  lemma JoinFive(parts: seq<seq<byte>>, v: seq<byte>, w: seq<byte>, x: seq<byte>, y: seq<byte>, z: seq<byte>)
    ensures Join(parts + [v] + [w] + [x] + [y] + [z]) == Join(parts) + (v + w + x + y + z)
  {
    JoinThree(parts, v, w, x);
    JoinSnoc(parts + [v] + [w] + [x], y);
    JoinSnoc(parts + [v] + [w] + [x] + [y], z);
  }

  lemma Assoc(x: seq<byte>, y: seq<byte>, z: seq<byte>)
    ensures x + (y + z) == (x + y) + z
  {
  }

  lemma DataSectionSnoc(b: string, fields: seq<Field>, i: nat)
    requires i < |fields|
    ensures DataSection(b, fields[..i + 1]) == DataSection(b, fields[..i]) + DataPart(b, fields[i])
  {
    assert fields[..i + 1][..i] == fields[..i];
  }

  lemma FileSectionSnoc(b: string, uploads: seq<Upload>, j: nat)
    requires j < |uploads|
    ensures FileSection(b, uploads[..j + 1]) == FileSection(b, uploads[..j]) + FilePart(b, uploads[j])
  {
    assert uploads[..j + 1][..j] == uploads[..j];
  }

  /** Appending the three pieces of one data field extends the data section
      by that field's part. */
  lemma AppendDataPart(b: string, fields: seq<Field>, i: nat, parts: seq<seq<byte>>)
    requires i < |fields|
    requires Join(parts) == DataSection(b, fields[..i])
    ensures Join(parts + [Encode(Delimiter(b))] + [Encode(DataDisposition(fields[i].name))]
                   + [Encode(Render(fields[i].value) + Crlf)])
            == DataSection(b, fields[..i + 1])
  {
    var f := fields[i];
    JoinThree(parts, Encode(Delimiter(b)), Encode(DataDisposition(f.name)), Encode(Render(f.value) + Crlf));
    DataSectionSnoc(b, fields, i);
  }

  /** Appending the five pieces of one upload extends the file section by
      that upload's part. */
  lemma AppendFilePart(b: string, fields: seq<Field>, uploads: seq<Upload>, j: nat, parts: seq<seq<byte>>)
    requires j < |uploads|
    requires Join(parts) == DataSection(b, fields) + FileSection(b, uploads[..j])
    ensures Join(parts + [Encode(Delimiter(b))] + [Encode(FileDisposition(uploads[j].name, Basename(uploads[j].path)))]
                   + [OctetStreamBytes] + [uploads[j].content] + [Encode(Crlf)])
            == DataSection(b, fields) + FileSection(b, uploads[..j + 1])
  {
    var u := uploads[j];
    JoinFive(parts, Encode(Delimiter(b)), Encode(FileDisposition(u.name, Basename(u.path))),
             OctetStreamBytes, u.content, Encode(Crlf));
    FileSectionSnoc(b, uploads, j);
    Assoc(DataSection(b, fields), FileSection(b, uploads[..j]), FilePart(b, u));
  }

  /** The serialising loops of `api_request`: three pieces per data field,
      five per file, then the closing delimiter, joined. */
  method BuildBody(b: string, fields: seq<Field>, uploads: seq<Upload>) returns (body: seq<byte>)
    ensures body == Body(b, fields, uploads)
  {
    var parts: seq<seq<byte>> := [];
    for i := 0 to |fields|
      invariant Join(parts) == DataSection(b, fields[..i])
    {
      var f := fields[i];
      AppendDataPart(b, fields, i, parts);
      parts := parts + [Encode(Delimiter(b))];
      parts := parts + [Encode(DataDisposition(f.name))];
      parts := parts + [Encode(Render(f.value) + Crlf)];
    }
    assert fields[..|fields|] == fields;
    assert uploads[..0] == [];
    for j := 0 to |uploads|
      invariant Join(parts) == DataSection(b, fields) + FileSection(b, uploads[..j])
    {
      var u := uploads[j];
      var fileName := Basename(u.path);
      AppendFilePart(b, fields, uploads, j, parts);
      parts := parts + [Encode(Delimiter(b))];
      parts := parts + [Encode(FileDisposition(u.name, fileName))];
      parts := parts + [OctetStreamBytes];
      parts := parts + [u.content];
      parts := parts + [Encode(Crlf)];
    }
    assert uploads[..|uploads|] == uploads;
    JoinSnoc(parts, Encode(CloseDelimiter(b)));
    parts := parts + [Encode(CloseDelimiter(b))];
    body := Join(parts);
  }

  /** The data parts, one per field, in insertion order. */
  function DataParts(b: string, fields: seq<Field>): (ps: seq<seq<byte>>)
    ensures |ps| == |fields|
    ensures forall k :: 0 <= k < |fields| ==> ps[k] == DataPart(b, fields[k])
    decreases |fields|
  {
    if fields == [] then [] else DataParts(b, fields[..|fields| - 1]) + [DataPart(b, fields[|fields| - 1])]
  }

  /** The file parts, one per upload, in insertion order. */
  function FileParts(b: string, uploads: seq<Upload>): (ps: seq<seq<byte>>)
    ensures |ps| == |uploads|
    ensures forall k :: 0 <= k < |uploads| ==> ps[k] == FilePart(b, uploads[k])
    decreases |uploads|
  {
    if uploads == [] then [] else FileParts(b, uploads[..|uploads| - 1]) + [FilePart(b, uploads[|uploads| - 1])]
  }

  /** The parts in the order they are written: every data field, then every
      file. */
  function Parts(b: string, fields: seq<Field>, uploads: seq<Upload>): seq<seq<byte>> {
    DataParts(b, fields) + FileParts(b, uploads)
  }

  /** The first parts are the data fields, in order. */
  lemma DataPartAt(b: string, fields: seq<Field>, uploads: seq<Upload>, k: nat)
    requires k < |fields|
    ensures |Parts(b, fields, uploads)| == |fields| + |uploads|
    ensures Parts(b, fields, uploads)[k] == DataPart(b, fields[k])
  {
    var d := DataParts(b, fields);
    var f := FileParts(b, uploads);
    assert (d + f)[k] == d[k];
  }

  /** The remaining parts are the uploads, in order. */
  lemma FilePartAt(b: string, fields: seq<Field>, uploads: seq<Upload>, j: nat)
    requires j < |uploads|
    ensures |Parts(b, fields, uploads)| == |fields| + |uploads|
    ensures Parts(b, fields, uploads)[|fields| + j] == FilePart(b, uploads[j])
  {
    var d := DataParts(b, fields);
    var f := FileParts(b, uploads);
    var ps := d + f;
    assert ps == Parts(b, fields, uploads);
    assert |d| == |fields|;
    assert ps[|d| + j] == f[j];
  }

  lemma {:induction false} JoinAppend(p: seq<seq<byte>>, q: seq<seq<byte>>)
    ensures Join(p + q) == Join(p) + Join(q)
    decreases |q|
  {
    if q == [] {
      assert p + q == p;
    } else {
      var q' := q[..|q| - 1];
      assert p + q == (p + q') + [q[|q| - 1]];
      JoinAppend(p, q');
      JoinSnoc(p + q', q[|q| - 1]);
      JoinSnoc(q', q[|q| - 1]);
      assert q == q' + [q[|q| - 1]];
      Assoc(Join(p), Join(q'), q[|q| - 1]);
    }
  }

  lemma {:induction false} JoinStartsWithFirst(ps: seq<seq<byte>>)
    requires |ps| > 0
    ensures ps[0] <= Join(ps)
    decreases |ps|
  {
    if |ps| > 1 {
      JoinStartsWithFirst(ps[..|ps| - 1]);
    } else {
      assert ps[..0] == [];
    }
  }

  lemma {:induction false} DataSectionIsParts(b: string, fields: seq<Field>)
    ensures DataSection(b, fields) == Join(DataParts(b, fields))
    decreases |fields|
  {
    if fields != [] {
      var n := |fields| - 1;
      DataSectionIsParts(b, fields[..n]);
      JoinSnoc(DataParts(b, fields[..n]), DataPart(b, fields[n]));
    }
  }

  lemma {:induction false} FileSectionIsParts(b: string, uploads: seq<Upload>)
    ensures FileSection(b, uploads) == Join(FileParts(b, uploads))
    decreases |uploads|
  {
    if uploads != [] {
      var n := |uploads| - 1;
      FileSectionIsParts(b, uploads[..n]);
      JoinSnoc(FileParts(b, uploads[..n]), FilePart(b, uploads[n]));
    }
  }

  /** The body is the parts, data fields before files, followed by the
      closing delimiter. */
  lemma BodyIsParts(b: string, fields: seq<Field>, uploads: seq<Upload>)
    ensures Body(b, fields, uploads) == Join(Parts(b, fields, uploads)) + Encode(CloseDelimiter(b))
  {
    DataSectionIsParts(b, fields);
    FileSectionIsParts(b, uploads);
    JoinAppend(DataParts(b, fields), FileParts(b, uploads));
  }

  /** Every part opens with the delimiter line. */
  lemma PartOpensWithDelimiter(b: string, fields: seq<Field>, uploads: seq<Upload>, k: nat)
    requires k < |fields| + |uploads|
    ensures Encode(Delimiter(b)) <= Parts(b, fields, uploads)[k]
  {
    if k < |fields| {
      DataPartAt(b, fields, uploads, k);
    } else {
      FilePartAt(b, fields, uploads, k - |fields|);
    }
  }

  /** A body with at least one part opens with the delimiter line, one
      without parts is the closing delimiter alone, and every body ends
      with the closing delimiter line. */
  lemma BodyFraming(b: string, fields: seq<Field>, uploads: seq<Upload>)
    ensures |fields| + |uploads| > 0 ==> Encode(Delimiter(b)) <= Body(b, fields, uploads)
    ensures |fields| + |uploads| == 0 ==> Body(b, fields, uploads) == Encode(CloseDelimiter(b))
    ensures var body := Body(b, fields, uploads);
            var close := Encode(CloseDelimiter(b));
            |close| <= |body| && body[|body| - |close|..] == close
  {
    BodyIsParts(b, fields, uploads);
    var ps := Parts(b, fields, uploads);
    if |ps| > 0 {
      JoinStartsWithFirst(ps);
      PartOpensWithDelimiter(b, fields, uploads, 0);
    }
  }

  /** The file name a part carries is the last path component: it has no
      '/' and ends the path. */
  lemma FileNameIsBasename(u: Upload)
    ensures '/' !in Basename(u.path)
    ensures |Basename(u.path)| <= |u.path|
    ensures Basename(u.path) == u.path[|u.path| - |Basename(u.path)|..]
    ensures |Basename(u.path)| < |u.path| ==> u.path[|u.path| - |Basename(u.path)| - 1] == '/'
  {
    BasenameIsLastComponent(u.path);
  }

  /** A number within the digit limit is rendered so that reading the field
      back gives it again. */
  lemma NumberFieldRoundTrip(n: int)
    requires |NatToString(if n < 0 then -n else n)| <= IntMaxStrDigits
    ensures ParseInt(Render(Number(n))) == Some(n)
  {
    ParseIntToString(n);
  }

  /** The header names the same boundary the body uses. */
  lemma HeaderNamesBoundary(b: string)
    ensures HeaderBoundary(ContentTypeHeader(b)) == Some(b)
  {
    assert ContentTypeHeader(b)[..|HeaderPrefix|] == HeaderPrefix;
  }

  /** The characters RFC 2046 allows in a boundary. */
  predicate IsBoundaryChar(c: char) {
    ('0' <= c <= '9') || ('a' <= c <= 'z') || ('A' <= c <= 'Z')
    || c == '\'' || c == '(' || c == ')' || c == '+' || c == '_' || c == ','
    || c == '-' || c == '.' || c == '/' || c == ':' || c == '=' || c == '?' || c == ' '
  }

  /** Section 5.1.1 of RFC 2046: one to seventy boundary characters, not
      ending in a space. */
  predicate ValidBoundary(b: string) {
    1 <= |b| <= 70 && (forall k :: 0 <= k < |b| ==> IsBoundaryChar(b[k])) && b[|b| - 1] != ' '
  }

  /** The fixed boundary is a valid one. */
  lemma FixedBoundaryValid()
    ensures ValidBoundary(Boundary)
  {
  }
}

=== FILE: polling.dfy ===
/** `poll_generation` of `scripts/ltx_generate.py`: query the job's status
    until it completes, fails, or the deadline passes. The clock is left
    out: `budget` is the number of times the deadline test passes, and
    `replies` are the answers to the successive status queries. */
module Polling {
  import opened Common
  import opened ScriptApi

  /** A reply's status, "unknown" when it carries none. */
  function Status(result: map<string, Json>): Json {
    Get(result, "status", JStr("unknown"))
  }

  predicate IsCompleted(result: map<string, Json>) {
    Status(result) == JStr("completed")
  }

  predicate IsFailed(result: map<string, Json>) {
    Status(result) == JStr("failed") || Status(result) == JStr("error")
  }

  /** A reply after which polling goes on. */
  predicate Pending(reply: ApiReply) {
    reply.Answer? && !IsCompleted(reply.result) && !IsFailed(reply.result)
  }

  datatype PollOutcome =
    | Completed(result: map<string, Json>, queries: nat)
    | JobFailed(error: Json, queries: nat)
    | TimedOut(queries: nat)
    | RequestFailed(failure: ApiFailure, queries: nat)

  /** Polling from the `k`-th query on. The outcome is decided by the first
      reply that is not pending; if the budget runs out first, the job has
      timed out after exactly `budget` queries. The source's 300-second
      deadline and 3-second pause only decide how large `budget` is. */
  function PollFrom(replies: seq<ApiReply>, budget: nat, k: nat): (o: PollOutcome)
    requires k <= budget <= |replies|
    ensures k <= o.queries <= budget
    ensures forall j :: k <= j < o.queries && (o.TimedOut? || j < o.queries - 1) ==> Pending(replies[j])
    ensures o.TimedOut? <==> o.queries == budget && (budget == k || Pending(replies[budget - 1]))
    ensures !o.TimedOut? ==> o.queries > k
    ensures o.Completed? ==>
              replies[o.queries - 1] == Answer(o.result) && IsCompleted(o.result)
    ensures o.JobFailed? ==>
              && replies[o.queries - 1].Answer?
              && IsFailed(replies[o.queries - 1].result)
              && o.error == Get(replies[o.queries - 1].result, "error", JStr("Unknown error"))
    ensures o.RequestFailed? ==>
              ApiResult(replies[o.queries - 1]) == Err(o.failure)
    decreases budget - k
  {
    if k == budget then TimedOut(k)
    else
      match replies[k]
      case Answer(result) =>
        if IsCompleted(result) then Completed(result, k + 1)
        else if IsFailed(result) then JobFailed(Get(result, "error", JStr("Unknown error")), k + 1)
        else PollFrom(replies, budget, k + 1)
      case _ => RequestFailed(ApiResult(replies[k]).error, k + 1)
  }

  function Poll(replies: seq<ApiReply>, budget: nat): PollOutcome
    requires budget <= |replies|
  {
    PollFrom(replies, budget, 0)
  }

  /** The loop of `poll_generation`, query by query. */
  method PollGeneration(replies: seq<ApiReply>, budget: nat) returns (o: PollOutcome)
    requires budget <= |replies|
    ensures o == Poll(replies, budget)
  {
    var k := 0;
    while k < budget
      invariant k <= budget
      invariant PollFrom(replies, budget, k) == Poll(replies, budget)
      decreases budget - k
    {
      var reply := replies[k];
      if reply.HttpError? || reply.Unreachable? {
        return RequestFailed(ApiResult(reply).error, k + 1);
      }
      var status := Get(reply.result, "status", JStr("unknown"));
      if status == JStr("completed") {
        return Completed(reply.result, k + 1);
      } else if status == JStr("failed") || status == JStr("error") {
        return JobFailed(Get(reply.result, "error", JStr("Unknown error")), k + 1);
      }
      k := k + 1;
    }
    o := TimedOut(k);
  }

  /** With no time left not a single status query is made. */
  lemma ZeroBudgetNoQuery(replies: seq<ApiReply>)
    ensures Poll(replies, 0) == TimedOut(0)
  {
  }

  /** A status-less reply reads as "unknown", which keeps polling. */
  lemma MissingStatusKeepsPolling(result: map<string, Json>)
    requires "status" !in result
    ensures Pending(Answer(result))
  {
  }

  /** The outcome depends only on the replies up to the first one that is
      not pending: later replies are never looked at. */
  lemma {:induction false} LaterRepliesIgnored(replies: seq<ApiReply>, other: seq<ApiReply>, budget: nat, k: nat)
    requires k <= budget <= |replies| && budget <= |other|
    requires forall j :: k <= j < PollFrom(replies, budget, k).queries ==> other[j] == replies[j]
    ensures PollFrom(other, budget, k) == PollFrom(replies, budget, k)
    decreases budget - k
  {
    if k < budget && Pending(replies[k]) {
      LaterRepliesIgnored(replies, other, budget, k + 1);
    }
  }

  /** More time never turns a decided outcome into a different one. */
  lemma {:induction false} MoreBudgetSameDecision(replies: seq<ApiReply>, budget: nat, more: nat, k: nat)
    requires k <= budget <= more <= |replies|
    requires !PollFrom(replies, budget, k).TimedOut?
    ensures PollFrom(replies, more, k) == PollFrom(replies, budget, k)
    decreases budget - k
  {
    if Pending(replies[k]) {
      MoreBudgetSameDecision(replies, budget, more, k + 1);
    }
  }
}

=== FILE: pytext.dfy ===
/** The handful of Python string built-ins the scripts rely on: `str.lower`,
    `str.strip`, `str.startswith`, `in` on strings, `os.path.basename`,
    `str(int)` and `int(str)`, each stated for Dafny strings. */
module PyText {
  import opened Common

  /** `str.isspace` for one character: the complete set of code points that
      Python treats as whitespace. */
  predicate IsSpace(c: char) {
    var n := c as int;
    || (0x09 <= n <= 0x0D)
    || (0x1C <= n <= 0x20)
    || n == 0x85 || n == 0xA0 || n == 0x1680
    || (0x2000 <= n <= 0x200A)
    || n == 0x2028 || n == 0x2029 || n == 0x202F || n == 0x205F || n == 0x3000
  }

  predicate AllSpace(s: string) {
    forall k :: 0 <= k < |s| ==> IsSpace(s[k])
  }

  lemma AllSpaceConcat(a: string, b: string)
    requires AllSpace(a) && AllSpace(b)
    ensures AllSpace(a + b)
  {
    forall k | 0 <= k < |a + b|
      ensures IsSpace((a + b)[k])
    {
      if k < |a| {
        assert (a + b)[k] == a[k];
      } else {
        assert (a + b)[k] == b[k - |a|];
      }
    }
  }

  /** Lower-casing of one character. Every character whose Python lower-case
      form is an ASCII letter is folded (A-Z and KELVIN SIGN U+212A); other
      characters are left alone, which is enough for comparisons against
      ASCII keys. */
  function LowerChar(c: char): (d: char)
    ensures 'A' <= c <= 'Z' ==> d as int == c as int + 32
    ensures !('A' <= c <= 'Z') && c as int != 0x212A ==> d == c
  {
    if 'A' <= c <= 'Z' then (c as int + 32) as char
    else if c as int == 0x212A then 'k'
    else c
  }

  /** `str.lower` */
  function Lower(s: string): (r: string)
    ensures |r| == |s|
    ensures forall k :: 0 <= k < |s| ==> r[k] == LowerChar(s[k])
  {
    seq(|s|, k requires 0 <= k < |s| => LowerChar(s[k]))
  }

  /** The first index at or after `i` that does not hold whitespace. */
  function SkipSpace(s: string, i: nat): (j: nat)
    requires i <= |s|
    ensures i <= j <= |s|
    ensures forall k :: i <= k < j ==> IsSpace(s[k])
    ensures j == |s| || !IsSpace(s[j])
    decreases |s| - i
  {
    if i < |s| && IsSpace(s[i]) then SkipSpace(s, i + 1) else i
  }

  /** The end of `s[lo..j]` once its trailing whitespace is dropped. */
  function SkipSpaceBack(s: string, lo: nat, j: nat): (e: nat)
    requires lo <= j <= |s|
    ensures lo <= e <= j
    ensures forall k :: e <= k < j ==> IsSpace(s[k])
    ensures e == lo || !IsSpace(s[e - 1])
    decreases j
  {
    if lo < j && IsSpace(s[j - 1]) then SkipSpaceBack(s, lo, j - 1) else j
  }

  /** `str.strip()`: drops leading and trailing whitespace. */
  function Strip(s: string): string {
    var a := SkipSpace(s, 0);
    s[a..SkipSpaceBack(s, a, |s|)]
  }

  /** `SkipSpace` stops at the first non-whitespace character and nowhere else. */
  lemma {:induction false} SkipSpaceAt(s: string, i: nat, j: nat)
    requires i <= j <= |s|
    requires forall k :: i <= k < j ==> IsSpace(s[k])
    requires j == |s| || !IsSpace(s[j])
    ensures SkipSpace(s, i) == j
    decreases j - i
  {
    if i < j {
      SkipSpaceAt(s, i + 1, j);
    }
  }

  lemma {:induction false} SkipSpaceBackAt(s: string, lo: nat, j: nat, e: nat)
    requires lo <= e <= j <= |s|
    requires forall k :: e <= k < j ==> IsSpace(s[k])
    requires e == lo || !IsSpace(s[e - 1])
    ensures SkipSpaceBack(s, lo, j) == e
    decreases j - e
  {
    if e < j {
      SkipSpaceBackAt(s, lo, j - 1, e);
    }
  }

  /** Whitespace around a string that starts and ends with non-whitespace
      is exactly what `strip` removes. */
  lemma StripUnique(a: string, m: string, b: string)
    requires AllSpace(a) && AllSpace(b)
    requires m == [] || (!IsSpace(m[0]) && !IsSpace(m[|m| - 1]))
    ensures Strip(a + m + b) == m
  {
    var s := a + m + b;
    if m == [] {
      assert forall k :: 0 <= k < |s| ==> IsSpace(s[k]) by {
        forall k | 0 <= k < |s|
          ensures IsSpace(s[k])
        {
          if k < |a| {
            assert s[k] == a[k];
          } else {
            assert s[k] == b[k - |a|];
          }
        }
      }
      SkipSpaceAt(s, 0, |s|);
    } else {
      assert forall k :: 0 <= k < |a| ==> s[k] == a[k];
      assert s[|a|] == m[0];
      SkipSpaceAt(s, 0, |a|);
      assert forall k :: |a| + |m| <= k < |s| ==> s[k] == b[k - |a| - |m|];
      assert s[|a| + |m| - 1] == m[|m| - 1];
      SkipSpaceBackAt(s, |a|, |s|, |a| + |m|);
      assert s[|a|..|a| + |m|] == m;
    }
  }

  /** A stretch of whitespace, cut out of its string, is all whitespace. */
  lemma SliceAllSpace(s: string, lo: nat, hi: nat)
    requires lo <= hi <= |s|
    requires forall k :: lo <= k < hi ==> IsSpace(s[k])
    ensures AllSpace(s[lo..hi])
  {
    var t := s[lo..hi];
    forall k | 0 <= k < |t|
      ensures IsSpace(t[k])
    {
      assert t[k] == s[lo + k];
    }
  }

  /** `strip` only removes whitespace from the two ends of its argument,
      and leaves no whitespace at either end of its result. */
  lemma StripShape(s: string) returns (a: string, b: string)
    ensures s == a + Strip(s) + b
    ensures AllSpace(a) && AllSpace(b)
    ensures Strip(s) == [] || (!IsSpace(Strip(s)[0]) && !IsSpace(Strip(s)[|Strip(s)| - 1]))
  {
    var i := SkipSpace(s, 0);
    var e := SkipSpaceBack(s, i, |s|);
    a := s[..i];
    b := s[e..];
    var m := s[i..e];
    assert Strip(s) == m;
    SliceAllSpace(s, 0, i);
    SliceAllSpace(s, e, |s|);
    if m != [] {
      assert m[0] == s[i];
      assert m[|m| - 1] == s[e - 1];
    }
    assert s == a + m + b;
  }

  lemma Regroup<T>(p: seq<T>, q: seq<T>, r: seq<T>, t: seq<T>, u: seq<T>)
    ensures p + (q + r + t) + u == (p + q) + r + (t + u)
  {
  }

  /** `strip` is unaffected by extra whitespace on either side. */
  lemma StripPadded(w1: string, s: string, w2: string)
    requires AllSpace(w1) && AllSpace(w2)
    ensures Strip(w1 + s + w2) == Strip(s)
  {
    var a, b := StripShape(s);
    var m := Strip(s);
    AllSpaceConcat(w1, a);
    AllSpaceConcat(b, w2);
    Regroup(w1, a, m, b, w2);
    StripUnique(w1 + a, m, b + w2);
  }

  /** A string with no whitespace at either end is its own strip. */
  lemma StripNoSpace(s: string)
    requires s == [] || (!IsSpace(s[0]) && !IsSpace(s[|s| - 1]))
    ensures Strip(s) == s
  {
    assert [] + s + [] == s;
    StripUnique([], s, []);
  }

  /** `s.startswith(prefix)` */
  predicate StartsWith(s: string, prefix: string) {
    |prefix| <= |s| && s[..|prefix|] == prefix
  }

  /** `sub in s` for strings */
  predicate Contains(s: string, sub: string)
    decreases |s|
  {
    StartsWith(s, sub) || (s != [] && Contains(s[1..], sub))
  }

  /** Where the last path component of `p[..i]` starts: just after the last
      '/' before position `i`, or 0. */
  function ComponentStart(p: string, i: nat): (start: nat)
    requires i <= |p|
    ensures start <= i
    decreases i
  {
    if i == 0 || p[i - 1] == '/' then i else ComponentStart(p, i - 1)
  }

  /** `os.path.basename` with POSIX separators: the text after the last '/'. */
  function Basename(p: string): string {
    p[ComponentStart(p, |p|)..]
  }

  lemma {:induction false} ComponentStartSpec(p: string, i: nat)
    requires i <= |p|
    ensures forall k :: ComponentStart(p, i) <= k < i ==> p[k] != '/'
    ensures ComponentStart(p, i) > 0 ==> p[ComponentStart(p, i) - 1] == '/'
    decreases i
  {
    if i > 0 && p[i - 1] != '/' {
      ComponentStartSpec(p, i - 1);
    }
  }

  /** The base name is the longest suffix without a '/': it has none, it
      ends the path, and what precedes it (if anything) is a '/'. */
  lemma BasenameIsLastComponent(p: string)
    ensures var r := Basename(p);
            && '/' !in r
            && |r| <= |p| && r == p[|p| - |r|..]
            && (|r| < |p| ==> p[|p| - |r| - 1] == '/')
  {
    ComponentStartSpec(p, |p|);
    var r := Basename(p);
    var c := ComponentStart(p, |p|);
    assert forall k :: 0 <= k < |r| ==> r[k] == p[c + k];
  }

  predicate IsDigit(c: char) {
    '0' <= c <= '9'
  }

  function DigitChar(d: nat): (c: char)
    requires d < 10
    ensures IsDigit(c) && c as int - '0' as int == d
  {
    ('0' as int + d) as char
  }

  /** `str(n)` for a non-negative integer: decimal, no leading zeros. */
  function NatToString(n: nat): (r: string)
    ensures |r| > 0 && IsDigit(r[0])
    ensures forall k :: 0 <= k < |r| ==> IsDigit(r[k])
    decreases n
  {
    if n < 10 then [DigitChar(n)] else NatToString(n / 10) + [DigitChar(n % 10)]
  }

  /** `str(n)` */
  function IntToString(n: int): string {
    if n < 0 then "-" + NatToString(-n) else NatToString(n)
  }

  /** The digits of `int()`'s argument: ASCII digits, where a single '_' may
      separate two digits. */
  predicate DigitsOrUnderscores(s: string) {
    forall k :: 0 <= k < |s| ==> IsDigit(s[k]) || s[k] == '_'
  }

  predicate WellFormedDigits(s: string) {
    && |s| > 0
    && IsDigit(s[0])
    && DigitsOrUnderscores(s)
    && forall k :: 0 <= k < |s| && s[k] == '_' ==> k + 1 < |s| && IsDigit(s[k + 1])
  }

  function DigitValue(c: char): (d: nat)
    requires IsDigit(c)
    ensures d < 10
  {
    c as int - '0' as int
  }

  /** The value of a digit string, underscores ignored. */
  function DigitsValue(s: string): nat
    requires DigitsOrUnderscores(s)
  {
    if s == [] then 0
    else if s[|s| - 1] == '_' then DigitsValue(s[..|s| - 1])
    else DigitsValue(s[..|s| - 1]) * 10 + DigitValue(s[|s| - 1])
  }

  /** The four ASCII information separators U+001C to U+001F: whitespace to
      `str.strip`, but not to `int()`, which only skips the ASCII whitespace
      of C's `isspace` (and, in non-ASCII text, the other Unicode spaces). */
  predicate IsInfoSeparator(c: char) {
    0x1C <= c as int <= 0x1F
  }

  predicate NoInfoSeparator(s: string) {
    forall k :: 0 <= k < |s| ==> !IsInfoSeparator(s[k])
  }

  /** Whitespace that `int()` skips around a number. */
  predicate AllIntSpace(s: string) {
    AllSpace(s) && NoInfoSeparator(s)
  }

  /** The default bound on how many digits `int()` converts (Python's
      `sys.int_info.default_max_str_digits`, since 3.11 and the 3.10.7 and
      3.9.14 releases); longer digit strings raise. */
  const IntMaxStrDigits := 4300

  /** The number of decimal digits in `s`; underscores do not count. */
  function DigitCount(s: string): nat
    decreases |s|
  {
    if s == [] then 0
    else DigitCount(s[..|s| - 1]) + (if IsDigit(s[|s| - 1]) then 1 else 0)
  }

  /** Digits within the limit. */
  predicate ConvertibleDigits(s: string) {
    WellFormedDigits(s) && DigitCount(s) <= IntMaxStrDigits
  }

  /** A sign, then at most `IntMaxStrDigits` digits with single underscores
      between them. */
  function ParseSigned(t: string): Option<int> {
    if |t| > 0 && (t[0] == '-' || t[0] == '+') then
      if ConvertibleDigits(t[1..]) then
        var v: int := DigitsValue(t[1..]);
        Some(if t[0] == '-' then -v else v)
      else None
    else if ConvertibleDigits(t) then Some(DigitsValue(t))
    else None
  }

  /** `int(s)` with base 10: whitespace around the number is ignored, one
      optional sign, then digits; anything else raises, modelled as `None`.
      A number contains no information separator, so `int()` reads the text
      exactly when the text has none and what `str.strip` leaves parses. */
  function ParseInt(s: string): Option<int> {
    if NoInfoSeparator(s) then ParseSigned(Strip(s)) else None
  }

  lemma {:induction false} NatToStringValue(n: nat)
    ensures DigitsOrUnderscores(NatToString(n))
    ensures DigitsValue(NatToString(n)) == n
    decreases n
  {
    var r := NatToString(n);
    if n >= 10 {
      NatToStringValue(n / 10);
      assert r[..|r| - 1] == NatToString(n / 10);
      assert DigitValue(r[|r| - 1]) == n % 10;
    } else {
      assert r[..|r| - 1] == [];
    }
  }

  lemma NatToStringWellFormed(n: nat)
    ensures WellFormedDigits(NatToString(n))
  {
  }

  /** A string of digits only has as many digits as characters. */
  lemma {:induction false} DigitCountAllDigits(s: string)
    requires forall k :: 0 <= k < |s| ==> IsDigit(s[k])
    ensures DigitCount(s) == |s|
    decreases |s|
  {
    if s != [] {
      DigitCountAllDigits(s[..|s| - 1]);
    }
  }

  /** A digit string, with or without a leading minus sign, holds no
      information separator and is left alone by `strip`. */
  lemma SignedDigitsClean(d: string)
    requires d != []
    requires forall k :: 0 <= k < |d| ==> IsDigit(d[k])
    ensures NoInfoSeparator(d) && Strip(d) == d
    ensures NoInfoSeparator("-" + d) && Strip("-" + d) == "-" + d
  {
    StripNoSpace(d);
    var s := "-" + d;
    forall k | 0 <= k < |s|
      ensures !IsInfoSeparator(s[k])
    {
      if k > 0 {
        assert s[k] == d[k - 1];
      }
    }
    assert s[|s| - 1] == d[|d| - 1];
    StripNoSpace(s);
  }

  /** `int(str(n)) == n` for every integer whose decimal form is within
      the digit limit (`str(n)` itself refuses longer ones). */
  lemma ParseIntToString(n: int)
    requires |NatToString(if n < 0 then -n else n)| <= IntMaxStrDigits
    ensures ParseInt(IntToString(n)) == Some(n)
  {
    var s := IntToString(n);
    var m: nat := if n < 0 then -n else n;
    var d := NatToString(m);
    NatToStringValue(m);
    NatToStringWellFormed(m);
    DigitCountAllDigits(d);
    SignedDigitsClean(d);
    if n < 0 {
      assert s == "-" + d;
      assert s[1..] == d;
    } else {
      assert s == d;
      assert !(s[0] == '-' || s[0] == '+');
    }
  }

  /** The information separators of `a + b` are those of `a` and of `b`. */
  lemma NoInfoSeparatorConcat(a: string, b: string)
    ensures NoInfoSeparator(a + b) <==> NoInfoSeparator(a) && NoInfoSeparator(b)
  {
    if NoInfoSeparator(a + b) {
      forall k | 0 <= k < |a|
        ensures !IsInfoSeparator(a[k])
      {
        assert a[k] == (a + b)[k];
      }
      forall k | 0 <= k < |b|
        ensures !IsInfoSeparator(b[k])
      {
        assert b[k] == (a + b)[|a| + k];
      }
    }
  }

  /** `int()` ignores the whitespace it recognises around its argument. */
  lemma ParseIntPadded(w1: string, s: string, w2: string)
    requires AllIntSpace(w1) && AllIntSpace(w2)
    ensures ParseInt(w1 + s + w2) == ParseInt(s)
  {
    StripPadded(w1, s, w2);
    NoInfoSeparatorConcat(w1, s);
    NoInfoSeparatorConcat(w1 + s, w2);
  }

  /** An information separator anywhere, even in what `str.strip` would
      remove, makes `int()` fail. */
  lemma ParseIntRejectsInfoSeparator(s: string, k: nat)
    requires k < |s| && IsInfoSeparator(s[k])
    ensures ParseInt(s) == None
  {
  }

  /** "\x1c5" shows the difference: `str.strip` removes the separator and
      leaves "5", while `int()` rejects the text. */
  lemma StripAndIntDisagree()
    ensures Strip(['\U{1C}', '5']) == "5"
    ensures ParseInt(['\U{1C}', '5']) == None
  {
    StripUnique(['\U{1C}'], "5", "");
    assert ['\U{1C}'] + "5" + "" == ['\U{1C}', '5'];
    ParseIntRejectsInfoSeparator(['\U{1C}', '5'], 0);
  }

  /** More than `IntMaxStrDigits` digits are rejected, with or without a
      sign, however well formed. */
  lemma ParseIntRejectsTooManyDigits(t: string)
    requires WellFormedDigits(t) && DigitCount(t) > IntMaxStrDigits
    ensures ParseInt(t) == None
    ensures ParseInt("-" + t) == None
  {
    assert t[|t| - 1] != '_';
    StripNoSpace(t);
    var u := "-" + t;
    assert u[|u| - 1] == t[|t| - 1];
    StripNoSpace(u);
    assert u[1..] == t;
  }

  /** "1" written 4301 times is rejected; 4300 times it is read. */
  lemma DigitLimitBoundary()
    ensures ParseInt(seq(4301, _ => '1')) == None
    ensures ParseInt(seq(4300, _ => '1')).Some?
  {
    var long: string := seq(4301, _ => '1');
    var short: string := seq(4300, _ => '1');
    DigitCountAllDigits(long);
    DigitCountAllDigits(short);
    ParseIntRejectsTooManyDigits(long);
    StripNoSpace(short);
    assert NoInfoSeparator(short);
  }

  /** `int()` rejects two underscores in a row, wherever they stand. */
  lemma ParseIntRejectsDoubleUnderscore(a: string, b: string)
    ensures ParseInt(a + "__" + b) == None
  {
    var s := a + "__" + b;
    var i := |a|;
    assert s[i] == '_' && s[i + 1] == '_';
    var p, q := StripShape(s);
    var t := Strip(s);
    assert |p| <= i;
    assert i + 1 < |p| + |t|;
    var j := i - |p|;
    assert t[j] == s[i] && t[j + 1] == s[i + 1];
    if |t| > 0 && (t[0] == '-' || t[0] == '+') {
      assert 1 <= j;
      assert t[1..][j - 1] == '_' && t[1..][j] == '_';
      assert !WellFormedDigits(t[1..]);
    } else {
      assert !WellFormedDigits(t);
    }
  }
}

=== FILE: root_args.dfy ===
/** The command line of the top-level `ltx_generate.py`: positional mode and
    prompt, value options, flags, and the dispatch that follows the parse. */
module RootArgs {
  import opened Common
  import opened PyText
  import opened RootPricing
  import RootRequest

  /** The options that take the following token as their value. */
  datatype ValueOption = ModelOpt | DurationOpt | ResolutionOpt | FpsOpt | CameraOpt | ImageOpt | AudioOpt | OutputOpt

  function OptionName(o: ValueOption): string {
    match o
    case ModelOpt => "--model"
    case DurationOpt => "--duration"
    case ResolutionOpt => "--resolution"
    case FpsOpt => "--fps"
    case CameraOpt => "--camera"
    case ImageOpt => "--image"
    case AudioOpt => "--audio"
    case OutputOpt => "--output"
  }

  /** Recognises the name of a value option. */
  function ValueOptionOf(t: string): (r: Option<ValueOption>)
    ensures r.Some? ==> OptionName(r.value) == t
    ensures forall o :: t == OptionName(o) ==> r == Some(o)
  {
    if t == "--model" then Some(ModelOpt)
    else if t == "--duration" then Some(DurationOpt)
    else if t == "--resolution" then Some(ResolutionOpt)
    else if t == "--fps" then Some(FpsOpt)
    else if t == "--camera" then Some(CameraOpt)
    else if t == "--image" then Some(ImageOpt)
    else if t == "--audio" then Some(AudioOpt)
    else if t == "--output" then Some(OutputOpt)
    else None
  }

  predicate IsModeWord(t: string) {
    t == "t2v" || t == "i2v" || t == "a2v"
  }

  /** What the loop makes of the token it stands on. */
  datatype Token =
    | EstimateFlag
    | Valued(opt: ValueOption, value: string)
    | NoAudioFlag
    | ModeWord(mode: string)
    | Word(text: string)
    | Skipped(text: string)

  /** How many tokens one step of the loop consumes. */
  function Width(args: seq<string>, i: nat): (w: nat)
    requires i < |args|
    ensures w == 1 || w == 2
    ensures i + w <= |args|
    ensures w == 2 <==> ValueOptionOf(args[i]).Some? && i + 1 < |args|
  {
    if args[i] != "--estimate" && ValueOptionOf(args[i]).Some? && i + 1 < |args| then 2 else 1
  }

  /** The token at position `i`, following the order of the tests in the
      loop: a value option is only recognised when a value follows it, and a
      bare word is a candidate prompt only if it does not start with "--". */
  function TokenAt(args: seq<string>, i: nat): Token
    requires i < |args|
  {
    var a := args[i];
    if a == "--estimate" then EstimateFlag
    else if ValueOptionOf(a).Some? && i + 1 < |args| then Valued(ValueOptionOf(a).value, args[i + 1])
    else if a == "--no-audio" then NoAudioFlag
    else if IsModeWord(a) then ModeWord(a)
    else if !StartsWith(a, "--") then Word(a)
    else Skipped(a)
  }

  /** The tokens the loop visits from position `i` on. */
  function Tokens(args: seq<string>, i: nat): seq<Token>
    requires i <= |args|
    decreases |args| - i
  {
    if i == |args| then [] else [TokenAt(args, i)] + Tokens(args, i + Width(args, i))
  }

  /** Everything the loop collects. */
  datatype Settings = Settings(
    estimate: bool,
    mode: Option<string>,
    prompt: Option<string>,
    model: string,
    duration: int,
    resolution: string,
    fps: int,
    camera: Option<string>,
    generateAudio: bool,
    image: Option<string>,
    audio: Option<string>,
    output: Option<string>)

  const Defaults := Settings(false, None, None, "ltx-2-fast", 6, FullHd, 25, None, true, None, None, None)

  datatype ArgError =
    | BadResolution(input: string)
    | NotAnInteger(option: ValueOption, text: string)

  /** One step of the loop. `--resolution` normalises its value at once and
      `--duration`/`--fps` convert theirs with `int()`, so those can fail. */
  function Apply(s: Settings, t: Token): Result<Settings, ArgError> {
    match t
    case EstimateFlag => Ok(s.(estimate := true))
    case NoAudioFlag => Ok(s.(generateAudio := false))
    case ModeWord(m) => Ok(s.(mode := Some(m)))
    case Word(w) => if s.prompt.None? then Ok(s.(prompt := Some(w))) else Ok(s)
    case Skipped(_) => Ok(s)
    case Valued(o, v) =>
      match o
      case ModelOpt => Ok(s.(model := v))
      case DurationOpt =>
        (match ParseInt(v) case None => Err(NotAnInteger(o, v)) case Some(n) => Ok(s.(duration := n)))
      case ResolutionOpt =>
        (match ResolveResolution(v) case Err(_) => Err(BadResolution(v)) case Ok(r) => Ok(s.(resolution := r)))
      case FpsOpt =>
        (match ParseInt(v) case None => Err(NotAnInteger(o, v)) case Some(n) => Ok(s.(fps := n)))
      case CameraOpt => Ok(s.(camera := Some(v)))
      case ImageOpt => Ok(s.(image := Some(v)))
      case AudioOpt => Ok(s.(audio := Some(v)))
      case OutputOpt => Ok(s.(output := Some(v)))
  }

  /** The steps applied in order; the first failure ends the parse. */
  function Fold(s: Settings, toks: seq<Token>): Result<Settings, ArgError>
    decreases |toks|
  {
    if toks == [] then Ok(s)
    else match Fold(s, toks[..|toks| - 1])
      case Err(e) => Err(e)
      case Ok(s') => Apply(s', toks[|toks| - 1])
  }

  lemma {:induction false} FoldFailureSticks(s: Settings, front: seq<Token>, rest: seq<Token>)
    requires Fold(s, front).Err?
    ensures Fold(s, front + rest) == Fold(s, front)
    decreases |rest|
  {
    if rest != [] {
      assert (front + rest)[..|front + rest| - 1] == front + rest[..|rest| - 1];
      FoldFailureSticks(s, front, rest[..|rest| - 1]);
    } else {
      assert front + rest == front;
    }
  }

  lemma FoldStep(s: Settings, front: seq<Token>, t: Token)
    ensures Fold(s, front + [t]) ==
              match Fold(s, front) case Err(e) => Err(e) case Ok(s') => Apply(s', t)
  {
    assert (front + [t])[..|front + [t]| - 1] == front;
  }

  /** What makes an option name: never one of the flags or mode words,
      always starting with "--". */
  lemma OptionNameShape(o: ValueOption)
    ensures OptionName(o) != "--estimate" && OptionName(o) != "--no-audio"
    ensures !IsModeWord(OptionName(o)) && StartsWith(OptionName(o), "--")
    ensures ValueOptionOf(OptionName(o)) == Some(o)
  {
    match o
    case ModelOpt =>
    case DurationOpt =>
    case ResolutionOpt =>
    case FpsOpt =>
    case CameraOpt =>
    case ImageOpt =>
    case AudioOpt =>
    case OutputOpt =>
  }

  lemma ValuedAt(args: seq<string>, i: nat, o: ValueOption)
    requires i + 1 < |args| && args[i] == OptionName(o)
    ensures TokenAt(args, i) == Valued(o, args[i + 1]) && Width(args, i) == 2
  {
    OptionNameShape(o);
  }

  lemma NotValuedAt(args: seq<string>, i: nat)
    requires i < |args|
    requires forall o :: !(i + 1 < |args| && args[i] == OptionName(o))
    ensures Width(args, i) == 1 && !TokenAt(args, i).Valued?
  {
  }

  /** `int(args[i + 1])` for `--duration` or `--fps`: the converted value is
      stored, and text `int()` rejects ends the parse. */
  method ReadNumber(s: Settings, o: ValueOption, v: string) returns (r: Result<Settings, ArgError>)
    requires o == DurationOpt || o == FpsOpt
    ensures r == Apply(s, Valued(o, v))
  {
    var n := ParseInt(v);
    if n.None? {
      r := Err(NotAnInteger(o, v));
    } else if o == DurationOpt {
      r := Ok(s.(duration := n.value));
    } else {
      r := Ok(s.(fps := n.value));
    }
  }

  /** One pass of the argument loop of `main`: the tests in the source's
      order, returning the new settings (or the conversion failure that
      ends the program) and the next position. */
  method Step(args: seq<string>, i: nat, s: Settings) returns (r: Result<Settings, ArgError>, next: nat)
    requires i < |args|
    ensures next == i + Width(args, i)
    ensures r == Apply(s, TokenAt(args, i))
  {
    var a := args[i];
    var hasValue := i + 1 < |args|;
    next := i + 1;
    if a == "--estimate" {
      r := Ok(s.(estimate := true));
    } else if a == "--model" && hasValue {
      ValuedAt(args, i, ModelOpt);
      r := Ok(s.(model := args[i + 1]));
      next := i + 2;
    } else if a == "--duration" && hasValue {
      ValuedAt(args, i, DurationOpt);
      r := ReadNumber(s, DurationOpt, args[i + 1]);
      next := i + 2;
    } else if a == "--resolution" && hasValue {
      ValuedAt(args, i, ResolutionOpt);
      var res := ResolveResolution(args[i + 1]);
      r := if res.Err? then Err(BadResolution(args[i + 1])) else Ok(s.(resolution := res.value));
      next := i + 2;
    } else if a == "--fps" && hasValue {
      ValuedAt(args, i, FpsOpt);
      r := ReadNumber(s, FpsOpt, args[i + 1]);
      next := i + 2;
    } else if a == "--camera" && hasValue {
      ValuedAt(args, i, CameraOpt);
      r := Ok(s.(camera := Some(args[i + 1])));
      next := i + 2;
    } else if a == "--no-audio" {
      r := Ok(s.(generateAudio := false));
    } else if a == "--image" && hasValue {
      ValuedAt(args, i, ImageOpt);
      r := Ok(s.(image := Some(args[i + 1])));
      next := i + 2;
    } else if a == "--audio" && hasValue {
      ValuedAt(args, i, AudioOpt);
      r := Ok(s.(audio := Some(args[i + 1])));
      next := i + 2;
    } else if a == "--output" && hasValue {
      ValuedAt(args, i, OutputOpt);
      r := Ok(s.(output := Some(args[i + 1])));
      next := i + 2;
    } else {
      NotValuedAt(args, i);
      if IsModeWord(a) {
        r := Ok(s.(mode := Some(a)));
      } else if !StartsWith(a, "--") && s.prompt.None? {
        r := Ok(s.(prompt := Some(a)));
      } else {
        r := Ok(s);
      }
    }
  }

  /** One more step of the loop extends the visited tokens by the token at
      `i`; a failing step decides the whole parse. */
  lemma Advance(args: seq<string>, i: nat, done: seq<Token>, s: Settings,
                 step: Result<Settings, ArgError>, next: nat)
    requires i < |args| && next == i + Width(args, i)
    requires done + Tokens(args, i) == Tokens(args, 0)
    requires Fold(Defaults, done) == Ok(s)
    requires step == Apply(s, TokenAt(args, i))
    ensures (done + [TokenAt(args, i)]) + Tokens(args, next) == Tokens(args, 0)
    ensures Fold(Defaults, done + [TokenAt(args, i)]) == step
    ensures step.Err? ==> Fold(Defaults, Tokens(args, 0)) == step
  {
    var t := TokenAt(args, i);
    var rest := Tokens(args, next);
    assert Tokens(args, i) == [t] + rest;
    assert (done + [t]) + rest == done + ([t] + rest);
    FoldStep(Defaults, done, t);
    if step.Err? {
      FoldFailureSticks(Defaults, done + [t], rest);
    }
  }

  /** The argument loop of `main`: the settings it ends with, or the first
      conversion failure, are the fold of the tokens it visits. */
  method ParseArgs(args: seq<string>) returns (r: Result<Settings, ArgError>)
    ensures r == Fold(Defaults, Tokens(args, 0))
  {
    var s := Defaults;
    var i := 0;
    ghost var done: seq<Token> := [];
    while i < |args|
      invariant i <= |args|
      invariant done + Tokens(args, i) == Tokens(args, 0)
      invariant Fold(Defaults, done) == Ok(s)
      decreases |args| - i
    {
      var step, next := Step(args, i, s);
      Advance(args, i, done, s, step, next);
      if step.Err? {
        return Err(step.error);
      }
      s := step.value;
      done := done + [TokenAt(args, i)];
      i := next;
    }
    assert done == Tokens(args, 0);
    r := Ok(s);
  }

  // ----- what the fold computes --------------------------------------------

  /** The value of the last visited occurrence of option `o`. */
  function LastValue(toks: seq<Token>, o: ValueOption): Option<string>
    decreases |toks|
  {
    if toks == [] then None
    else match toks[|toks| - 1]
      case Valued(o', v) => if o' == o then Some(v) else LastValue(toks[..|toks| - 1], o)
      case _ => LastValue(toks[..|toks| - 1], o)
  }

  /** The last visited mode word. */
  function LastMode(toks: seq<Token>): Option<string>
    decreases |toks|
  {
    if toks == [] then None
    else if toks[|toks| - 1].ModeWord? then Some(toks[|toks| - 1].mode)
    else LastMode(toks[..|toks| - 1])
  }

  /** The first visited prompt candidate. */
  function FirstWord(toks: seq<Token>): Option<string>
    decreases |toks|
  {
    if toks == [] then None
    else if FirstWord(toks[..|toks| - 1]).Some? then FirstWord(toks[..|toks| - 1])
    else if toks[|toks| - 1].Word? then Some(toks[|toks| - 1].text)
    else None
  }

  function GetOr<T>(o: Option<T>, default: T): T {
    if o.Some? then o.value else default
  }

  /** After a successful parse each text-valued option holds the value of
      its last visited occurrence, or is untouched when it never occurs. */
  lemma {:induction false} FoldTextOptions(s: Settings, toks: seq<Token>)
    requires Fold(s, toks).Ok?
    ensures var st := Fold(s, toks).value;
            && st.model == GetOr(LastValue(toks, ModelOpt), s.model)
            && st.camera == (if LastValue(toks, CameraOpt).Some? then LastValue(toks, CameraOpt) else s.camera)
            && st.image == (if LastValue(toks, ImageOpt).Some? then LastValue(toks, ImageOpt) else s.image)
            && st.audio == (if LastValue(toks, AudioOpt).Some? then LastValue(toks, AudioOpt) else s.audio)
            && st.output == (if LastValue(toks, OutputOpt).Some? then LastValue(toks, OutputOpt) else s.output)
    decreases |toks|
  {
    if toks != [] {
      FoldTextOptions(s, toks[..|toks| - 1]);
      ApplyText(Fold(s, toks[..|toks| - 1]).value, toks[|toks| - 1]);
    }
  }

  lemma ApplyText(s: Settings, t: Token)
    requires Apply(s, t).Ok?
    ensures var s2 := Apply(s, t).value;
            && s2.model == (if t.Valued? && t.opt == ModelOpt then t.value else s.model)
            && s2.camera == (if t.Valued? && t.opt == CameraOpt then Some(t.value) else s.camera)
            && s2.image == (if t.Valued? && t.opt == ImageOpt then Some(t.value) else s.image)
            && s2.audio == (if t.Valued? && t.opt == AudioOpt then Some(t.value) else s.audio)
            && s2.output == (if t.Valued? && t.opt == OutputOpt then Some(t.value) else s.output)
  {
  }

  /** After a successful parse `--duration` holds the integer its last
      value converts to, or is untouched when it never occurs. */
  lemma {:induction false} FoldDuration(s: Settings, toks: seq<Token>)
    requires Fold(s, toks).Ok?
    ensures LastValue(toks, DurationOpt).Some? ==>
              ParseInt(LastValue(toks, DurationOpt).value) == Some(Fold(s, toks).value.duration)
    ensures LastValue(toks, DurationOpt).None? ==> Fold(s, toks).value.duration == s.duration
    decreases |toks|
  {
    if toks != [] {
      FoldDuration(s, toks[..|toks| - 1]);
      ApplyDuration(Fold(s, toks[..|toks| - 1]).value, toks[|toks| - 1]);
    }
  }

  lemma ApplyDuration(s: Settings, t: Token)
    requires Apply(s, t).Ok?
    ensures t.Valued? && t.opt == DurationOpt ==> ParseInt(t.value) == Some(Apply(s, t).value.duration)
    ensures !(t.Valued? && t.opt == DurationOpt) ==> Apply(s, t).value.duration == s.duration
  {
  }

  /** The same for `--fps`. */
  lemma {:induction false} FoldFps(s: Settings, toks: seq<Token>)
    requires Fold(s, toks).Ok?
    ensures LastValue(toks, FpsOpt).Some? ==>
              ParseInt(LastValue(toks, FpsOpt).value) == Some(Fold(s, toks).value.fps)
    ensures LastValue(toks, FpsOpt).None? ==> Fold(s, toks).value.fps == s.fps
    decreases |toks|
  {
    if toks != [] {
      FoldFps(s, toks[..|toks| - 1]);
      ApplyFps(Fold(s, toks[..|toks| - 1]).value, toks[|toks| - 1]);
    }
  }

  lemma ApplyFps(s: Settings, t: Token)
    requires Apply(s, t).Ok?
    ensures t.Valued? && t.opt == FpsOpt ==> ParseInt(t.value) == Some(Apply(s, t).value.fps)
    ensures !(t.Valued? && t.opt == FpsOpt) ==> Apply(s, t).value.fps == s.fps
  {
  }

  /** After a successful parse the resolution is what the last
      `--resolution` value resolves to, or is untouched. */
  lemma {:induction false} FoldResolution(s: Settings, toks: seq<Token>)
    requires Fold(s, toks).Ok?
    ensures LastValue(toks, ResolutionOpt).Some? ==>
              ResolveResolution(LastValue(toks, ResolutionOpt).value) == Ok(Fold(s, toks).value.resolution)
    ensures LastValue(toks, ResolutionOpt).None? ==> Fold(s, toks).value.resolution == s.resolution
    decreases |toks|
  {
    if toks != [] {
      FoldResolution(s, toks[..|toks| - 1]);
      ApplyResolution(Fold(s, toks[..|toks| - 1]).value, toks[|toks| - 1]);
    }
  }

  lemma ApplyResolution(s: Settings, t: Token)
    requires Apply(s, t).Ok?
    ensures t.Valued? && t.opt == ResolutionOpt ==>
              ResolveResolution(t.value) == Ok(Apply(s, t).value.resolution)
    ensures !(t.Valued? && t.opt == ResolutionOpt) ==> Apply(s, t).value.resolution == s.resolution
  {
  }

  /** After a successful parse the mode is the last mode word and, when no
      prompt was set before, the prompt is the first candidate word. */
  lemma {:induction false} FoldModeAndPrompt(s: Settings, toks: seq<Token>)
    requires Fold(s, toks).Ok?
    ensures var st := Fold(s, toks).value;
            && st.mode == (if LastMode(toks).Some? then LastMode(toks) else s.mode)
            && (s.prompt.None? ==> st.prompt == FirstWord(toks))
    decreases |toks|
  {
    if toks != [] {
      FoldModeAndPrompt(s, toks[..|toks| - 1]);
      ApplyModeAndPrompt(Fold(s, toks[..|toks| - 1]).value, toks[|toks| - 1]);
    }
  }

  lemma ApplyModeAndPrompt(s: Settings, t: Token)
    requires Apply(s, t).Ok?
    ensures Apply(s, t).value.mode == (if t.ModeWord? then Some(t.mode) else s.mode)
    ensures Apply(s, t).value.prompt == (if s.prompt.None? && t.Word? then Some(t.text) else s.prompt)
  {
  }

  /** `--estimate` and `--no-audio` take effect wherever they occur. */
  lemma {:induction false} FoldFlags(s: Settings, toks: seq<Token>)
    requires Fold(s, toks).Ok?
    ensures var st := Fold(s, toks).value;
            && st.estimate == (s.estimate || EstimateFlag in toks)
            && st.generateAudio == (s.generateAudio && NoAudioFlag !in toks)
    decreases |toks|
  {
    if toks != [] {
      var front := toks[..|toks| - 1];
      var t := toks[|toks| - 1];
      assert toks == front + [t];
      FoldFlags(s, front);
      ApplyFlags(Fold(s, front).value, t);
    }
  }

  lemma ApplyFlags(s: Settings, t: Token)
    requires Apply(s, t).Ok?
    ensures Apply(s, t).value.estimate == (s.estimate || t == EstimateFlag)
    ensures Apply(s, t).value.generateAudio == (s.generateAudio && t != NoAudioFlag)
  {
  }

  /** A parse that starts from a canonical resolution ends with one. */
  lemma {:induction false} FoldKeepsCanonical(s: Settings, toks: seq<Token>)
    requires IsCanonical(s.resolution)
    requires Fold(s, toks).Ok?
    ensures IsCanonical(Fold(s, toks).value.resolution)
    decreases |toks|
  {
    if toks != [] {
      FoldKeepsCanonical(s, toks[..|toks| - 1]);
      ApplyResolution(Fold(s, toks[..|toks| - 1]).value, toks[|toks| - 1]);
    }
  }

  /** A value option in final position has no value to take: the loop
      skips it and the settings do not change. */
  lemma DanglingOptionSkipped(args: seq<string>, s: Settings)
    requires |args| > 0 && ValueOptionOf(args[|args| - 1]).Some?
    ensures Tokens(args, |args| - 1) == [Skipped(args[|args| - 1])]
    ensures Apply(s, Skipped(args[|args| - 1])) == Ok(s)
  {
    var last := args[|args| - 1];
    var o := ValueOptionOf(last).value;
    assert last == OptionName(o);
    OptionNameShape(o);
    assert TokenAt(args, |args| - 1) == Skipped(last);
    assert Width(args, |args| - 1) == 1;
  }

  /** A value option consumes the next token whatever it looks like, so an
      option name in value position is a value and not an option. */
  lemma ValueConsumesNext(args: seq<string>, i: nat)
    requires i + 1 < |args| && ValueOptionOf(args[i]).Some?
    ensures TokenAt(args, i) == Valued(ValueOptionOf(args[i]).value, args[i + 1])
    ensures Tokens(args, i) == [TokenAt(args, i)] + Tokens(args, i + 2)
  {
    assert args[i] != "--estimate";
  }

  // ----- dispatch after the parse -------------------------------------------

  datatype Command =
    | ShowUsage
    | MissingApiKey
    | TestConnection
    | ArgFailure(argError: ArgError)
    | ShowEstimate(estimate: Estimate)
    | EstimateFailure(pricingError: PricingError)
    | MissingMode
    | MissingPrompt
    | Generate(request: RootRequest.VideoRequest)

  /** The arguments reach the parse: there are some, the key is set and
      the first argument is not `--test`. */
  predicate Parsed(args: seq<string>, apiKey: string) {
    args != [] && apiKey != "" && args[0] != "--test"
  }

  /** `main`: usage on no arguments, then the API-key check, then the test
      action, then the parse and what it selects. `apiKey` is the value of
      the key's environment variable, "" when unset. */
  function Run(args: seq<string>, apiKey: string): (c: Command)
    ensures args == [] <==> c == ShowUsage
    ensures args != [] && apiKey == "" <==> c == MissingApiKey
    ensures args != [] && apiKey != "" ==> (args[0] == "--test" <==> c == TestConnection)
    ensures c.ArgFailure? <==> Parsed(args, apiKey) && Fold(Defaults, Tokens(args, 0)).Err?
    ensures c.ArgFailure? ==> Fold(Defaults, Tokens(args, 0)) == Err(c.argError)
    ensures c.ShowEstimate? || c.EstimateFailure? <==>
              Parsed(args, apiKey) && Fold(Defaults, Tokens(args, 0)).Ok? && Fold(Defaults, Tokens(args, 0)).value.estimate
    ensures c.ShowEstimate? ==>
              var s := Fold(Defaults, Tokens(args, 0)).value;
              EstimateCost(s.model, s.resolution, s.duration) == Ok(c.estimate)
    ensures c == MissingMode <==>
              && Parsed(args, apiKey)
              && var s := Fold(Defaults, Tokens(args, 0));
              s.Ok? && !s.value.estimate && !StrTruthy(s.value.mode)
    ensures c == MissingPrompt <==>
              && Parsed(args, apiKey)
              && var s := Fold(Defaults, Tokens(args, 0));
              s.Ok? && !s.value.estimate && StrTruthy(s.value.mode) && !StrTruthy(s.value.prompt)
    ensures c.Generate? ==>
              && Parsed(args, apiKey)
              && var s := Fold(Defaults, Tokens(args, 0));
              && s.Ok? && !s.value.estimate && StrTruthy(s.value.mode) && StrTruthy(s.value.prompt)
              && c.request == RootRequest.VideoRequest(
                   s.value.mode.value, s.value.prompt.value, s.value.model, s.value.duration,
                   s.value.resolution, s.value.fps, s.value.camera, s.value.generateAudio,
                   s.value.image, s.value.audio)
    ensures c.Generate? ==> c.request.mode != "" && c.request.prompt != ""
  {
    if args == [] then ShowUsage
    else if apiKey == "" then MissingApiKey
    else if args[0] == "--test" then TestConnection
    else
      match Fold(Defaults, Tokens(args, 0))
      case Err(e) => ArgFailure(e)
      case Ok(s) =>
        if s.estimate then
          match EstimateCost(s.model, s.resolution, s.duration)
          case Ok(est) => ShowEstimate(est)
          case Err(e) => EstimateFailure(e)
        else if !StrTruthy(s.mode) then MissingMode
        else if !StrTruthy(s.prompt) then MissingPrompt
        else Generate(RootRequest.VideoRequest(
          s.mode.value, s.prompt.value, s.model, s.duration, s.resolution, s.fps,
          s.camera, s.generateAudio, s.image, s.audio))
  }

  /** The estimate action always succeeds: the parse only ever stores a
      canonical resolution, and resolving that again cannot fail. */
  lemma EstimateNeverFails(args: seq<string>, apiKey: string)
    ensures !Run(args, apiKey).EstimateFailure?
  {
    if args != [] && apiKey != "" && args[0] != "--test" && Fold(Defaults, Tokens(args, 0)).Ok? {
      var s := Fold(Defaults, Tokens(args, 0)).value;
      FoldKeepsCanonical(Defaults, Tokens(args, 0));
      CanonicalResolvesToItself(s.resolution);
    }
  }

  /** Every mode that reaches generation is one of the three known modes,
      so the request builder never rejects it as unknown. */
  lemma GenerateModeKnown(args: seq<string>, apiKey: string)
    requires Run(args, apiKey).Generate?
    ensures ParseMode(Run(args, apiKey).request.mode).Some?
  {
    var toks := Tokens(args, 0);
    FoldModeAndPrompt(Defaults, toks);
    TokensModeWords(args, 0);
    LastModeIsModeWord(toks);
  }

  lemma {:induction false} TokensModeWords(args: seq<string>, i: nat)
    requires i <= |args|
    ensures forall k :: 0 <= k < |Tokens(args, i)| && Tokens(args, i)[k].ModeWord? ==>
              IsModeWord(Tokens(args, i)[k].mode)
    decreases |args| - i
  {
    if i < |args| {
      TokensModeWords(args, i + Width(args, i));
    }
  }

  lemma {:induction false} LastModeIsModeWord(toks: seq<Token>)
    requires forall k :: 0 <= k < |toks| && toks[k].ModeWord? ==> IsModeWord(toks[k].mode)
    ensures LastMode(toks).Some? ==> IsModeWord(LastMode(toks).value)
    decreases |toks|
  {
    if toks != [] && !toks[|toks| - 1].ModeWord? {
      LastModeIsModeWord(toks[..|toks| - 1]);
    }
  }
}

=== FILE: root_pricing.dfy ===
/** Resolution aliases and the per-second price table of the top-level
    `ltx_generate.py`. Prices are whole US cents. */
module RootPricing {
  import opened Common
  import opened PyText

  const FullHd := "1920x1080"
  const Qhd := "2560x1440"
  const Uhd := "3840x2160"

  /** The three resolutions the service accepts. */
  predicate IsCanonical(r: string) {
    r == FullHd || r == Qhd || r == Uhd
  }

  /** Alias table, keyed by lower-case spelling. */
  const Resolutions: map<string, string> := map[
    "1080p" := FullHd, "1080" := FullHd, "1920x1080" := FullHd,
    "1440p" := Qhd, "1440" := Qhd, "2560x1440" := Qhd, "2k" := Qhd,
    "4k" := Uhd, "2160p" := Uhd, "3840x2160" := Uhd, "uhd" := Uhd]

  /** Cents per second of video, by model and canonical resolution. */
  const CostPerSec: map<string, map<string, nat>> := map[
    "ltx-2-fast" := map[FullHd := 2, Qhd := 4, Uhd := 8],
    "ltx-2-pro" := map[FullHd := 5, Qhd := 10, Uhd := 20]]

  /** Rate used when the model or the resolution is not in the table. */
  const FallbackCents: nat := 5

  datatype PricingError = UnknownResolution(input: string)

  /** The table key an input is looked up under. */
  function LookupKey(input: string): string {
    Strip(Lower(input))
  }

  /** `resolve_resolution`: an alias, in any case and with any surrounding
      whitespace, becomes its canonical resolution; anything else fails. */
  function ResolveResolution(input: string): (r: Result<string, PricingError>)
    ensures r.Ok? <==> LookupKey(input) in Resolutions
    ensures r.Ok? ==> IsCanonical(r.value)
    ensures r.Err? ==> r.error == UnknownResolution(input)
  {
    var key := LookupKey(input);
    if key in Resolutions then Ok(Resolutions[key]) else Err(UnknownResolution(input))
  }

  /** `COST_PER_SEC.get(model, {}).get(resolution, 0.05)` in cents. */
  function Rate(model: string, resolution: string): (cents: nat)
    ensures model !in CostPerSec ==> cents == FallbackCents
    ensures model in CostPerSec && resolution !in CostPerSec[model] ==> cents == FallbackCents
    ensures model in CostPerSec && resolution in CostPerSec[model] ==>
              cents == CostPerSec[model][resolution]
  {
    if model in CostPerSec && resolution in CostPerSec[model] then CostPerSec[model][resolution]
    else FallbackCents
  }

  datatype Estimate = Estimate(model: string, resolution: string, duration: int,
                               centsPerSec: nat, totalCents: int)

  /** `estimate_cost`: normalise the resolution (failing on an unknown one),
      then price the whole duration at the table rate. */
  function EstimateCost(model: string, resolution: string, duration: int): (r: Result<Estimate, PricingError>)
    ensures r.Ok? <==> ResolveResolution(resolution).Ok?
    ensures r.Err? ==> r.error == UnknownResolution(resolution)
    ensures r.Ok? ==> && r.value.model == model
                      && r.value.duration == duration
                      && r.value.resolution == ResolveResolution(resolution).value
                      && r.value.centsPerSec == Rate(model, r.value.resolution)
                      && r.value.totalCents == r.value.centsPerSec * duration
  {
    match ResolveResolution(resolution)
    case Err(e) => Err(e)
    case Ok(res) =>
      var rate := Rate(model, res);
      Ok(Estimate(model, res, duration, rate, rate * duration))
  }

  /** Every canonical resolution is its own alias. */
  lemma CanonicalResolvesToItself(r: string)
    requires IsCanonical(r)
    ensures ResolveResolution(r) == Ok(r)
  {
    assert Lower(r) == r;
    StripNoSpace(r);
  }

  /** Resolving a resolved value changes nothing. */
  lemma ResolveIdempotent(input: string)
    requires ResolveResolution(input).Ok?
    ensures ResolveResolution(ResolveResolution(input).value) == ResolveResolution(input)
  {
    CanonicalResolvesToItself(ResolveResolution(input).value);
  }

  lemma LowerSpace(w: string)
    requires AllSpace(w)
    ensures Lower(w) == w
  {
    assert forall k :: 0 <= k < |w| ==> IsSpace(w[k]);
  }

  lemma {:induction false} LowerAppend(a: string, b: string)
    ensures Lower(a + b) == Lower(a) + Lower(b)
  {
    assert forall k :: 0 <= k < |a| ==> (a + b)[k] == a[k];
    assert forall k :: |a| <= k < |a + b| ==> (a + b)[k] == b[k - |a|];
  }

  /** Whitespace around the input never changes the outcome. */
  lemma ResolveIgnoresPadding(w1: string, input: string, w2: string)
    requires AllSpace(w1) && AllSpace(w2)
    ensures ResolveResolution(w1 + input + w2).Ok? == ResolveResolution(input).Ok?
    ensures ResolveResolution(input).Ok? ==>
              ResolveResolution(w1 + input + w2) == ResolveResolution(input)
  {
    LowerAppend(w1 + input, w2);
    LowerAppend(w1, input);
    LowerSpace(w1);
    LowerSpace(w2);
    StripPadded(w1, Lower(input), w2);
  }

  /** Upper-case aliases are folded before the lookup. */
  lemma UpperCaseAlias()
    ensures ResolveResolution("4K") == Ok(Uhd)
  {
    assert Lower("4K") == "4k";
    StripNoSpace("4k");
    assert Resolutions["4k"] == Uhd;
  }

  /** Whitespace around an alias is stripped before the lookup. */
  lemma PaddedAlias()
    ensures ResolveResolution(" uhd ") == Ok(Uhd)
  {
    assert Lower("uhd") == "uhd";
    StripNoSpace("uhd");
    assert Resolutions["uhd"] == Uhd;
    assert " uhd " == " " + "uhd" + " ";
    ResolveIgnoresPadding(" ", "uhd", " ");
  }

  /** Every key of the alias table, written as listed, resolves to its own
      entry. */
  lemma TableKeysResolve(k: string)
    requires k in Resolutions
    ensures ResolveResolution(k) == Ok(Resolutions[k])
  {
    assert forall i :: 0 <= i < |k| ==> '0' <= k[i] <= '9' || 'a' <= k[i] <= 'z';
    LowerKeepsLowerCase(k);
    StripNoSpace(k);
  }

  /** Text without upper-case letters is its own lower case. */
  lemma LowerKeepsLowerCase(s: string)
    requires forall i :: 0 <= i < |s| ==> '0' <= s[i] <= '9' || 'a' <= s[i] <= 'z'
    ensures Lower(s) == s
  {
  }

  /** A resolution that is not an alias is rejected. */
  lemma RejectsUnknownResolution()
    ensures ResolveResolution("720p") == Err(UnknownResolution("720p"))
  {
    assert Lower("720p") == "720p";
    StripNoSpace("720p");
    assert "720p" !in Resolutions;
  }

  /** Estimating on an already-normalised resolution gives the same
      estimate, so normalising twice is harmless. */
  lemma EstimateAfterResolve(model: string, resolution: string, duration: int)
    requires ResolveResolution(resolution).Ok?
    ensures EstimateCost(model, ResolveResolution(resolution).value, duration)
            == EstimateCost(model, resolution, duration)
  {
    ResolveIdempotent(resolution);
  }

  /** A canonical resolution never fails to estimate and is priced as is. */
  lemma EstimateCanonical(model: string, resolution: string, duration: int)
    requires IsCanonical(resolution)
    ensures EstimateCost(model, resolution, duration).Ok?
    ensures EstimateCost(model, resolution, duration).value.resolution == resolution
    ensures EstimateCost(model, resolution, duration).value.totalCents == Rate(model, resolution) * duration
  {
    CanonicalResolvesToItself(resolution);
  }

  /** The rate table: the pro model costs 5, 10 and 20 cents a second at
      1080p, 1440p and 4K, the fast model 2, 4 and 8, and any other model
      the fallback 5. */
  lemma RateTable(other: string)
    requires other != "ltx-2-fast" && other != "ltx-2-pro"
    ensures Rate("ltx-2-fast", FullHd) == 2 && Rate("ltx-2-fast", Qhd) == 4 && Rate("ltx-2-fast", Uhd) == 8
    ensures Rate("ltx-2-pro", FullHd) == 5 && Rate("ltx-2-pro", Qhd) == 10 && Rate("ltx-2-pro", Uhd) == 20
    ensures Rate(other, FullHd) == 5 && Rate(other, Qhd) == 5 && Rate(other, Uhd) == 5
  {
  }

  /** Ten seconds of pro video at "4k" costs two dollars. */
  lemma ProFourKTenSeconds()
    ensures EstimateCost("ltx-2-pro", "4k", 10) == Ok(Estimate("ltx-2-pro", Uhd, 10, 20, 200))
  {
    assert Lower("4k") == "4k";
    StripNoSpace("4k");
    assert Resolutions["4k"] == Uhd;
    assert Rate("ltx-2-pro", Uhd) == 20;
  }
}

=== FILE: root_request.dfy ===
/** Request building, connectivity test and reply handling of the top-level
    `ltx_generate.py`, which posts JSON and receives the video itself as the
    reply body. The HTTP exchange is an input: a reply is given, not fetched. */
module RootRequest {
  import opened Common
  import opened PyText
  import RootPricing

  const BaseUrl := "https://api.ltx.video/v1"

  /** The model and resolution every audio-to-video request is sent with. */
  const A2vModel := "ltx-2-pro"
  const A2vResolution := "1920x1080"

  /** Seconds the printed audio-to-video estimate assumes. */
  const A2vEstimateSeconds := 10

  function EndpointPath(m: Mode): string {
    match m
    case T2V => "/text-to-video"
    case I2V => "/image-to-video"
    case A2V => "/audio-to-video"
  }

  /** The arguments of `generate_video` that shape the request. */
  datatype VideoRequest = VideoRequest(
    mode: string,
    prompt: string,
    model: string,
    duration: int,
    resolution: string,
    fps: int,
    camera: Option<string>,
    generateAudio: bool,
    image: Option<string>,
    audio: Option<string>)

  datatype RequestError =
    | UnknownMode(mode: string)
    | AudioNotUrl(audio: string)
    | ImageNotUrl(image: string)
    | ImageRequired

  /** What is posted, where, and the estimate printed beforehand. */
  datatype Submission = Submission(endpoint: string, payload: map<string, Json>, estimateCents: int)

  /** Media is accepted only as a reference starting with "http". */
  predicate IsUrl(s: string) {
    StartsWith(s, "http")
  }

  /** The payload before the mode-specific edits: the six common fields, and
      the camera motion when one was given. */
  function BasePayload(p: VideoRequest): map<string, Json> {
    var fields := map[
      "prompt" := JStr(p.prompt),
      "model" := JStr(p.model),
      "duration" := JNum(p.duration),
      "resolution" := JStr(p.resolution),
      "fps" := JNum(p.fps),
      "generate_audio" := JBool(p.generateAudio)];
    if StrTruthy(p.camera) then fields["camera_motion" := JStr(p.camera.value)] else fields
  }

  /** Audio-to-video: fixed model and resolution, no duration, frame rate or
      audio toggle, and the audio reference when there is one. */
  function A2vPayload(p: VideoRequest): Result<map<string, Json>, RequestError> {
    var fixed := (BasePayload(p) - {"duration", "fps", "generate_audio"})
                   ["model" := JStr(A2vModel)]["resolution" := JStr(A2vResolution)];
    if !StrTruthy(p.audio) then Ok(fixed)
    else if IsUrl(p.audio.value) then Ok(fixed["audio_url" := JStr(p.audio.value)])
    else Err(AudioNotUrl(p.audio.value))
  }

  /** Image-to-video: the image reference is required and must be a URL. */
  function I2vPayload(p: VideoRequest): Result<map<string, Json>, RequestError> {
    if !StrTruthy(p.image) then Err(ImageRequired)
    else if IsUrl(p.image.value) then Ok(BasePayload(p)["image_url" := JStr(p.image.value)])
    else Err(ImageNotUrl(p.image.value))
  }

  /** The estimate `generate_video` prints: the caller's model and resolution
      priced for the requested duration, or for ten seconds in audio mode. */
  function PrintedEstimate(m: Mode, p: VideoRequest): int {
    var rate := RootPricing.Rate(p.model, p.resolution);
    if m == A2V then rate * A2vEstimateSeconds else rate * p.duration
  }

  /** The validation and payload part of `generate_video`. */
  function BuildSubmission(p: VideoRequest): (r: Result<Submission, RequestError>)
    ensures ParseMode(p.mode).None? <==> r == Err(UnknownMode(p.mode))
    ensures r.Ok? ==> r.value.endpoint == BaseUrl + EndpointPath(ParseMode(p.mode).value)
    ensures ParseMode(p.mode) == Some(I2V) ==>
              (r.Ok? <==> StrTruthy(p.image) && IsUrl(p.image.value))
    ensures ParseMode(p.mode) == Some(A2V) ==>
              (r.Ok? <==> !StrTruthy(p.audio) || IsUrl(p.audio.value))
    ensures ParseMode(p.mode) == Some(T2V) ==> r.Ok?
  {
    match ParseMode(p.mode)
    case None => Err(UnknownMode(p.mode))
    case Some(m) =>
      var payload :=
        match m
        case T2V => Ok(BasePayload(p))
        case I2V => I2vPayload(p)
        case A2V => A2vPayload(p);
      match payload
      case Err(e) => Err(e)
      case Ok(fields) => Ok(Submission(BaseUrl + EndpointPath(m), fields, PrintedEstimate(m, p)))
  }

  /** In audio mode the payload names the pro model at 1080p and carries no
      duration, frame rate or audio toggle, whatever the caller passed. */
  lemma A2vPayloadFixed(p: VideoRequest)
    requires p.mode == "a2v"
    requires BuildSubmission(p).Ok?
    ensures var payload := BuildSubmission(p).value.payload;
            && payload["model"] == JStr("ltx-2-pro")
            && payload["resolution"] == JStr("1920x1080")
            && "duration" !in payload
            && "fps" !in payload
            && "generate_audio" !in payload
            && payload["prompt"] == JStr(p.prompt)
            && ("audio_url" in payload <==> StrTruthy(p.audio))
  {
  }

  /** The printed estimate prices the caller's model and resolution, not the
      ones an audio request is rewritten to, over the requested duration or,
      in audio mode, over ten seconds; an unknown pair costs 5 cents a
      second. */
  lemma EstimateFromCaller(p: VideoRequest)
    requires BuildSubmission(p).Ok?
    ensures var cents := BuildSubmission(p).value.estimateCents;
            var seconds := if p.mode == "a2v" then 10 else p.duration;
            && (p.model in RootPricing.CostPerSec && p.resolution in RootPricing.CostPerSec[p.model] ==>
                  cents == RootPricing.CostPerSec[p.model][p.resolution] * seconds)
            && (!(p.model in RootPricing.CostPerSec && p.resolution in RootPricing.CostPerSec[p.model]) ==>
                  cents == 5 * seconds)
  {
  }

  /** An audio request on the default fast model is estimated at the fast
      rate, although the payload asks for the pro model. */
  lemma A2vEstimateBelowPro(p: VideoRequest)
    requires p.mode == "a2v" && p.model == "ltx-2-fast" && p.resolution == "1920x1080"
    requires BuildSubmission(p).Ok?
    ensures BuildSubmission(p).value.estimateCents == 20
    ensures BuildSubmission(p).value.payload["model"] == JStr("ltx-2-pro")
    ensures RootPricing.Rate("ltx-2-pro", "1920x1080") * 10 == 50
  {
    A2vPayloadFixed(p);
  }

  /** Two audio-mode requests that differ only in model, duration,
      resolution, frame rate and audio toggle produce the same payload. */
  lemma A2vIgnoresOverrides(p: VideoRequest, q: VideoRequest)
    requires p.mode == "a2v" && q.mode == "a2v"
    requires p.prompt == q.prompt && p.camera == q.camera && p.audio == q.audio
    ensures BuildSubmission(p).Ok? == BuildSubmission(q).Ok?
    ensures BuildSubmission(p).Ok? ==>
              BuildSubmission(p).value.payload == BuildSubmission(q).value.payload
  {
    var bp := BasePayload(p) - {"duration", "fps", "generate_audio"};
    var bq := BasePayload(q) - {"duration", "fps", "generate_audio"};
    assert bp["model" := JStr(A2vModel)]["resolution" := JStr(A2vResolution)]
        == bq["model" := JStr(A2vModel)]["resolution" := JStr(A2vResolution)];
  }

  /** An audio-mode request without audio is accepted and has no audio key;
      one whose audio is not a URL is rejected. */
  lemma A2vAudioOptional(p: VideoRequest)
    requires p.mode == "a2v"
    ensures !StrTruthy(p.audio) ==>
              BuildSubmission(p).Ok? && "audio_url" !in BuildSubmission(p).value.payload
    ensures StrTruthy(p.audio) && !IsUrl(p.audio.value) ==>
              BuildSubmission(p) == Err(AudioNotUrl(p.audio.value))
  {
  }

  /** Image mode rejects a missing image and a non-URL image, and otherwise
      sends the image reference. */
  lemma I2vImageChecked(p: VideoRequest)
    requires p.mode == "i2v"
    ensures !StrTruthy(p.image) ==> BuildSubmission(p) == Err(ImageRequired)
    ensures StrTruthy(p.image) && !IsUrl(p.image.value) ==>
              BuildSubmission(p) == Err(ImageNotUrl(p.image.value))
    ensures StrTruthy(p.image) && IsUrl(p.image.value) ==>
              BuildSubmission(p).Ok? && BuildSubmission(p).value.payload["image_url"] == JStr(p.image.value)
  {
  }

  /** The camera-motion key is sent exactly when a non-empty camera motion
      was supplied, in every mode. */
  lemma CameraKeyIffSupplied(p: VideoRequest)
    requires BuildSubmission(p).Ok?
    ensures "camera_motion" in BuildSubmission(p).value.payload <==> StrTruthy(p.camera)
    ensures StrTruthy(p.camera) ==>
              BuildSubmission(p).value.payload["camera_motion"] == JStr(p.camera.value)
  {
  }

  /** Text and image mode send the caller's six common fields unchanged. */
  lemma CommonFieldsKept(p: VideoRequest)
    requires p.mode == "t2v" || p.mode == "i2v"
    requires BuildSubmission(p).Ok?
    ensures var payload := BuildSubmission(p).value.payload;
            && payload["prompt"] == JStr(p.prompt)
            && payload["model"] == JStr(p.model)
            && payload["duration"] == JNum(p.duration)
            && payload["resolution"] == JStr(p.resolution)
            && payload["fps"] == JNum(p.fps)
            && payload["generate_audio"] == JBool(p.generateAudio)
  {
    BaseFields(p);
    if p.mode == "t2v" {
      assert BuildSubmission(p).value.payload == BasePayload(p);
    } else {
      assert BuildSubmission(p).value.payload == BasePayload(p)["image_url" := JStr(p.image.value)];
    }
  }

  lemma BaseFields(p: VideoRequest)
    ensures var b := BasePayload(p);
            && b.Keys >= {"prompt", "model", "duration", "resolution", "fps", "generate_audio"}
            && b["prompt"] == JStr(p.prompt)
            && b["model"] == JStr(p.model)
            && b["duration"] == JNum(p.duration)
            && b["resolution"] == JStr(p.resolution)
            && b["fps"] == JNum(p.fps)
            && b["generate_audio"] == JBool(p.generateAudio)
  {
  }

  /** The keys of a text-to-video payload are the six common ones plus the
      camera motion when given; nothing else. */
  lemma T2vKeys(p: VideoRequest)
    requires p.mode == "t2v"
    ensures BuildSubmission(p).value.payload.Keys ==
              {"prompt", "model", "duration", "resolution", "fps", "generate_audio"}
              + (if StrTruthy(p.camera) then {"camera_motion"} else {})
  {
  }

  // ----- connectivity test -------------------------------------------------

  /** `test_connection`: an answered request proves reachability, and so do
      the two refusals 422 (bad test parameters) and 429 (rate limited);
      every other refusal, including 401 and 403, and a transport failure do
      not. */
  function TestConnection(reply: TestReply): (reachable: bool)
    ensures reply.TestHttpError? && (reply.code == 401 || reply.code == 403) ==> !reachable
    ensures reply.TestHttpError? && (reply.code == 422 || reply.code == 429) ==> reachable
    ensures reply.TestHttpError? && reply.code !in {401, 403, 422, 429} ==> !reachable
    ensures reply.TestSucceeded? ==> reachable
    ensures reply.TestUnreachable? ==> !reachable
  {
    match reply
    case TestSucceeded(_) => true
    case TestHttpError(code) =>
      if code == 401 then false
      else if code == 403 then false
      else if code == 422 then true
      else if code == 429 then true
      else false
    case TestUnreachable => false
  }

  // ----- reply handling ----------------------------------------------------

  /** The advice printed after an HTTP error during generation. */
  datatype Hint = BadKey | NoCredits | RateLimited | BadParameters | NoHint

  function ErrorHint(code: int): (h: Hint)
    ensures h == BadKey <==> code == 401
    ensures h == NoCredits <==> code == 403
    ensures h == RateLimited <==> code == 429
    ensures h == BadParameters <==> code == 422
  {
    if code == 401 then BadKey
    else if code == 403 then NoCredits
    else if code == 429 then RateLimited
    else if code == 422 then BadParameters
    else NoHint
  }

  /** What the body of an HTTP error decoded to: not JSON at all, or a
      JSON document. */
  datatype ErrorBody = NotJson | Document(doc: Json)

  /** How the generation request came back. */
  datatype Reply =
    | Body(contentType: string, data: seq<int>)
    | HttpError(code: int, body: ErrorBody)
    | Unreachable

  datatype Outcome =
    | Saved(path: string, data: seq<int>)
    | UnexpectedContent(contentType: string)
    | HttpFailure(code: int, hint: Hint)
    | ErrorBodyCrash(code: int)
    | ConnectionFailure

  /** The error message can be looked up in an error body that is not JSON
      (it is printed raw), or that is an object whose "error" entry is
      missing or itself an object. Any other document makes the
      `.get("message", ...)` lookup raise, which ends the process before
      any advice is printed. */
  predicate MessageReadable(body: ErrorBody) {
    match body
    case NotJson => true
    case Document(doc) =>
      doc.JObj? && ("error" !in doc.fields || doc.fields["error"].JObj?)
  }

  /** Only a video or raw-bytes reply is saved. */
  predicate IsVideo(contentType: string) {
    Contains(contentType, "video/mp4") || Contains(contentType, "application/octet-stream")
  }

  /** The name of a saved video when no output path was given. */
  function DefaultFileName(mode: string, timestamp: string): string {
    "cineclaw-" + mode + "-" + timestamp + ".mp4"
  }

  /** Where the video is written: the given path, or the default name inside
      the output directory. */
  function OutputFile(mode: string, outputPath: Option<string>, outDir: string, timestamp: string): (path: string)
    ensures StrTruthy(outputPath) ==> path == outputPath.value
    ensures !StrTruthy(outputPath) ==> StartsWith(path, outDir + "/cineclaw-" + mode + "-")
    ensures !StrTruthy(outputPath) ==> path == outDir + "/cineclaw-" + mode + "-" + timestamp + ".mp4"
  {
    if StrTruthy(outputPath) then outputPath.value
    else
      assert outDir + "/" + DefaultFileName(mode, timestamp)
          == (outDir + "/cineclaw-" + mode + "-") + (timestamp + ".mp4");
      outDir + "/" + DefaultFileName(mode, timestamp)
  }

  /** Two runs at different timestamps never write to the same default file. */
  lemma DefaultNamesDistinct(mode: string, t1: string, t2: string)
    requires t1 != t2
    ensures DefaultFileName(mode, t1) != DefaultFileName(mode, t2)
  {
    var p := "cineclaw-" + mode + "-";
    assert DefaultFileName(mode, t1) == p + t1 + ".mp4";
    assert DefaultFileName(mode, t2) == p + t2 + ".mp4";
    if |t1| == |t2| {
      var k :| 0 <= k < |t1| && t1[k] != t2[k];
      assert DefaultFileName(mode, t1)[|p| + k] == t1[k];
      assert DefaultFileName(mode, t2)[|p| + k] == t2[k];
    }
  }

  /** Without an explicit output path, runs at different timestamps write
      to different files of the output directory. */
  lemma DefaultPathsDistinct(mode: string, outDir: string, t1: string, t2: string)
    requires t1 != t2
    ensures OutputFile(mode, None, outDir, t1) != OutputFile(mode, None, outDir, t2)
  {
    DefaultNamesDistinct(mode, t1, t2);
    var p1 := OutputFile(mode, None, outDir, t1);
    var p2 := OutputFile(mode, None, outDir, t2);
    assert p1 == outDir + "/" + DefaultFileName(mode, t1);
    assert p2 == outDir + "/" + DefaultFileName(mode, t2);
    assert p1[|outDir| + 1..] == DefaultFileName(mode, t1);
    assert p2[|outDir| + 1..] == DefaultFileName(mode, t2);
  }

  /** The reply part of `generate_video`. */
  function HandleReply(mode: string, outputPath: Option<string>, outDir: string, timestamp: string,
                       reply: Reply): (o: Outcome)
    ensures o.Saved? <==> reply.Body? && IsVideo(reply.contentType)
    ensures o.Saved? ==> o.data == reply.data
    ensures o.Saved? ==> o.path == OutputFile(mode, outputPath, outDir, timestamp)
    ensures reply.Body? && !IsVideo(reply.contentType) ==> o == UnexpectedContent(reply.contentType)
    ensures reply.HttpError? && MessageReadable(reply.body) ==> o == HttpFailure(reply.code, ErrorHint(reply.code))
    ensures reply.HttpError? && !MessageReadable(reply.body) ==> o == ErrorBodyCrash(reply.code)
    ensures reply.Unreachable? <==> o == ConnectionFailure
  {
    match reply
    case Body(contentType, data) =>
      if !IsVideo(contentType) then UnexpectedContent(contentType)
      else Saved(OutputFile(mode, outputPath, outDir, timestamp), data)
    case HttpError(code, body) =>
      if MessageReadable(body) then HttpFailure(code, ErrorHint(code)) else ErrorBodyCrash(code)
    case Unreachable => ConnectionFailure
  }

  /** The process exit status an outcome leads to. An unexpected content
      type is only warned about, so it exits with status 0. */
  function ExitStatus(o: Outcome): (status: int)
    ensures status == 0 <==> o.Saved? || o.UnexpectedContent?
  {
    match o
    case Saved(_, _) => 0
    case UnexpectedContent(_) => 0
    case HttpFailure(_, _) => 1
    case ErrorBodyCrash(_) => 1
    case ConnectionFailure => 1
  }

  /** Every HTTP error during generation ends the process with status 1;
      when the error message can be read, 401 is reported as a bad key and
      403 as missing credits. */
  lemma HttpErrorsAreFatal(mode: string, outputPath: Option<string>, outDir: string, timestamp: string,
                           code: int, body: ErrorBody)
    ensures var o := HandleReply(mode, outputPath, outDir, timestamp, HttpError(code, body));
            && ExitStatus(o) == 1
            && (MessageReadable(body) && code == 401 ==> o.hint == BadKey)
            && (MessageReadable(body) && code == 403 ==> o.hint == NoCredits)
            && (!MessageReadable(body) ==> !o.HttpFailure?)
  {
  }

  /** A run of the generation request succeeds exactly when the service
      answered with a body, whatever its content type. */
  lemma ExitZeroIffBody(mode: string, outputPath: Option<string>, outDir: string, timestamp: string,
                        reply: Reply)
    ensures ExitStatus(HandleReply(mode, outputPath, outDir, timestamp, reply)) == 0 <==> reply.Body?
  {
  }

  /** An error entry given as a plain string, as in `{"error": "Unauthorized"}`,
      stops the process before the advice, even for a rejected key. */
  lemma StringErrorSkipsAdvice(mode: string, outputPath: Option<string>, outDir: string, timestamp: string)
    ensures var body := Document(JObj(map["error" := JStr("Unauthorized")]));
            HandleReply(mode, outputPath, outDir, timestamp, HttpError(401, body)) == ErrorBodyCrash(401)
  {
  }
}

=== FILE: script_api.dfy ===
/** `api_request` and `test_connection` of `scripts/ltx_generate.py`: how a
    request is encoded, and how a reply or an HTTP error is classified. The
    exchange itself is an input. */
module ScriptApi {
  import opened Common
  import opened Multipart
  import RootRequest
  import Utf8

  const BaseUrl := "https://api.ltx.video/v1"

  datatype HttpMethod = GET | POST

  /** How the request travels: a multipart upload, a JSON document, or no
      body at all. */
  datatype Encoding =
    | MultipartBody(contentType: string, body: seq<Utf8.byte>)
    | JsonBody(data: seq<Field>)
    | NoBody

  /** The method and body `api_request` sends. `data` is the data
      dictionary in insertion order (empty when absent) and `uploads` the
      files dictionary with each file's bytes. */
  function Prepare(m: HttpMethod, data: seq<Field>, uploads: seq<Upload>): (r: (HttpMethod, Encoding))
    ensures r.1.MultipartBody? <==> uploads != []
    ensures r.1.JsonBody? <==> uploads == [] && data != [] && m == POST
    ensures r.1.MultipartBody? ==>
              && r.1.body == Body(Boundary, data, uploads)
              && HeaderBoundary(r.1.contentType) == Some(Boundary)
    ensures r.1.JsonBody? ==> r.1.data == data
    ensures r.1.NoBody? ==> r.0 == m
    ensures !r.1.NoBody? ==> r.0 == POST
  {
    if uploads != [] then
      HeaderNamesBoundary(Boundary);
      (POST, MultipartBody(ContentTypeHeader(Boundary), Body(Boundary, data, uploads)))
    else if data != [] && m == POST then (POST, JsonBody(data))
    else (m, NoBody)
  }

  /** A file upload is always a POST, whatever method was asked for. */
  lemma UploadsArePosted(m: HttpMethod, data: seq<Field>, uploads: seq<Upload>)
    requires uploads != []
    ensures Prepare(m, data, uploads).0 == POST
    ensures Prepare(m, data, uploads).1.MultipartBody?
  {
  }

  /** A GET carries no body even when data is passed. */
  lemma GetHasNoBody(data: seq<Field>)
    ensures Prepare(GET, data, []) == (GET, NoBody)
  {
  }

  /** The reply to one API call. */
  datatype ApiReply = Answer(result: map<string, Json>) | HttpError(code: int) | Unreachable

  /** The advice printed after an HTTP error. */
  datatype Hint = BadKey | NoCredits | RateLimited | NoHint

  function ErrorHint(code: int): (h: Hint)
    ensures h == BadKey <==> code == 401
    ensures h == NoCredits <==> code == 402
    ensures h == RateLimited <==> code == 429
  {
    if code == 401 then BadKey
    else if code == 402 then NoCredits
    else if code == 429 then RateLimited
    else NoHint
  }

  /** Why an API call ended the program. */
  datatype ApiFailure = HttpFailed(code: int, hint: Hint) | ConnectionFailed

  /** `api_request`'s result: the decoded reply, or the failure it exits
      with (status 1). */
  function ApiResult(reply: ApiReply): (r: Result<map<string, Json>, ApiFailure>)
    ensures r.Ok? <==> reply.Answer?
    ensures r.Ok? ==> r.value == reply.result
    ensures reply.HttpError? ==> r == Err(HttpFailed(reply.code, ErrorHint(reply.code)))
    ensures reply.Unreachable? ==> r == Err(ConnectionFailed)
  {
    match reply
    case Answer(result) => Ok(result)
    case HttpError(code) => Err(HttpFailed(code, ErrorHint(code)))
    case Unreachable => Err(ConnectionFailed)
  }

  /** The two scripts disagree on which status means missing credits: 402
      here, 403 in the top-level script. */
  lemma CreditCodesDiffer()
    ensures ErrorHint(402) == NoCredits && ErrorHint(403) == NoHint
    ensures RootRequest.ErrorHint(403) == RootRequest.NoCredits
    ensures RootRequest.ErrorHint(402) == RootRequest.NoHint
  {
  }

  /** Outside the credit codes (402 here, 403 and the parameter code 422
      there) the two scripts give the same advice for every status. */
  lemma HintsAgreeOutsideCreditCodes(code: int)
    requires code !in {402, 403, 422}
    ensures ErrorHint(code) == BadKey <==> RootRequest.ErrorHint(code) == RootRequest.BadKey
    ensures ErrorHint(code) == RateLimited <==> RootRequest.ErrorHint(code) == RootRequest.RateLimited
    ensures ErrorHint(code) == NoHint <==> RootRequest.ErrorHint(code) == RootRequest.NoHint
  {
  }

  /** `test_connection` against the health endpoint: only an answered
      request counts as reachable; it also reports whether to print the
      bad-key advice. */
  function TestConnection(reply: TestReply): (r: (bool, bool))
    ensures r.0 <==> reply.TestSucceeded?
    ensures r.1 <==> reply == TestHttpError(401)
  {
    match reply
    case TestSucceeded(_) => (true, false)
    case TestHttpError(code) => (false, code == 401)
    case TestUnreachable => (false, false)
  }

  /** This test is stricter than the top-level script's: whatever it
      accepts the other accepts too, but a 422 or 429 refusal is reachable
      only there. */
  lemma TestStricterThanRoot(reply: TestReply)
    ensures TestConnection(reply).0 ==> RootRequest.TestConnection(reply)
    ensures reply == TestHttpError(422) || reply == TestHttpError(429) ==>
              !TestConnection(reply).0 && RootRequest.TestConnection(reply)
  {
  }
}

=== FILE: script_args.dfy ===
/** The command line of `scripts/ltx_generate.py`: every setting is a named
    option with a value, `--estimate` is the one flag, and anything else is
    skipped. */
module ScriptArgs {
  import opened Common
  import opened PyText
  import ScriptPricing
  import ScriptRequest

  datatype ValueOption =
    | ModeOpt | PromptOpt | ModelOpt | ResolutionOpt | DurationOpt
    | FpsOpt | SeedOpt | ImageOpt | AudioOpt | OutputOpt

  function OptionName(o: ValueOption): string {
    match o
    case ModeOpt => "--mode"
    case PromptOpt => "--prompt"
    case ModelOpt => "--model"
    case ResolutionOpt => "--resolution"
    case DurationOpt => "--duration"
    case FpsOpt => "--fps"
    case SeedOpt => "--seed"
    case ImageOpt => "--image"
    case AudioOpt => "--audio"
    case OutputOpt => "--output"
  }

  /** Recognises the name of a value option. */
  function ValueOptionOf(t: string): (r: Option<ValueOption>)
    ensures r.Some? ==> OptionName(r.value) == t
    ensures forall o :: t == OptionName(o) ==> r == Some(o)
  {
    if t == "--mode" then Some(ModeOpt)
    else if t == "--prompt" then Some(PromptOpt)
    else if t == "--model" then Some(ModelOpt)
    else if t == "--resolution" then Some(ResolutionOpt)
    else if t == "--duration" then Some(DurationOpt)
    else if t == "--fps" then Some(FpsOpt)
    else if t == "--seed" then Some(SeedOpt)
    else if t == "--image" then Some(ImageOpt)
    else if t == "--audio" then Some(AudioOpt)
    else if t == "--output" then Some(OutputOpt)
    else None
  }

  /** What the loop makes of the token it stands on. */
  datatype Token = Valued(opt: ValueOption, value: string) | EstimateFlag | Skipped(text: string)

  /** How many tokens one step of the loop consumes. */
  function Width(args: seq<string>, i: nat): (w: nat)
    requires i < |args|
    ensures w == 1 || w == 2
    ensures i + w <= |args|
    ensures w == 2 <==> ValueOptionOf(args[i]).Some? && i + 1 < |args|
  {
    if ValueOptionOf(args[i]).Some? && i + 1 < |args| then 2 else 1
  }

  /** The token at position `i`: a value option followed by a value, the
      estimate flag, or a token that is skipped (a value option in final
      position among them). */
  function TokenAt(args: seq<string>, i: nat): Token
    requires i < |args|
  {
    if ValueOptionOf(args[i]).Some? && i + 1 < |args| then Valued(ValueOptionOf(args[i]).value, args[i + 1])
    else if args[i] == "--estimate" then EstimateFlag
    else Skipped(args[i])
  }

  /** The tokens the loop visits from position `i` on. */
  function Tokens(args: seq<string>, i: nat): seq<Token>
    requires i <= |args|
    decreases |args| - i
  {
    if i == |args| then [] else [TokenAt(args, i)] + Tokens(args, i + Width(args, i))
  }

  /** Everything the loop collects. */
  datatype Settings = Settings(
    mode: Option<string>,
    prompt: Option<string>,
    model: string,
    resolution: string,
    duration: int,
    fps: int,
    seed: Option<int>,
    image: Option<string>,
    audio: Option<string>,
    output: Option<string>,
    estimate: bool)

  const Defaults := Settings(None, None, "ltx-2-fast", "1920x1080", 6, 25, None, None, None, None, false)

  /** `int()` rejected the value of a numeric option. */
  datatype ArgError = NotAnInteger(option: ValueOption, text: string)

  /** One step of the loop: text options store their value as given, the
      numeric ones convert it with `int()`, which can fail. */
  function Apply(s: Settings, t: Token): Result<Settings, ArgError> {
    match t
    case EstimateFlag => Ok(s.(estimate := true))
    case Skipped(_) => Ok(s)
    case Valued(o, v) =>
      match o
      case ModeOpt => Ok(s.(mode := Some(v)))
      case PromptOpt => Ok(s.(prompt := Some(v)))
      case ModelOpt => Ok(s.(model := v))
      case ResolutionOpt => Ok(s.(resolution := v))
      case DurationOpt =>
        (match ParseInt(v) case None => Err(NotAnInteger(o, v)) case Some(n) => Ok(s.(duration := n)))
      case FpsOpt =>
        (match ParseInt(v) case None => Err(NotAnInteger(o, v)) case Some(n) => Ok(s.(fps := n)))
      case SeedOpt =>
        (match ParseInt(v) case None => Err(NotAnInteger(o, v)) case Some(n) => Ok(s.(seed := Some(n))))
      case ImageOpt => Ok(s.(image := Some(v)))
      case AudioOpt => Ok(s.(audio := Some(v)))
      case OutputOpt => Ok(s.(output := Some(v)))
  }

  /** The steps applied in order; the first failure ends the parse. */
  function Fold(s: Settings, toks: seq<Token>): Result<Settings, ArgError>
    decreases |toks|
  {
    if toks == [] then Ok(s)
    else match Fold(s, toks[..|toks| - 1])
      case Err(e) => Err(e)
      case Ok(s') => Apply(s', toks[|toks| - 1])
  }

  lemma FoldStep(s: Settings, front: seq<Token>, t: Token)
    ensures Fold(s, front + [t]) ==
              match Fold(s, front) case Err(e) => Err(e) case Ok(s') => Apply(s', t)
  {
    assert (front + [t])[..|front + [t]| - 1] == front;
  }

  lemma {:induction false} FoldFailureSticks(s: Settings, front: seq<Token>, rest: seq<Token>)
    requires Fold(s, front).Err?
    ensures Fold(s, front + rest) == Fold(s, front)
    decreases |rest|
  {
    if rest != [] {
      assert (front + rest)[..|front + rest| - 1] == front + rest[..|rest| - 1];
      FoldFailureSticks(s, front, rest[..|rest| - 1]);
    } else {
      assert front + rest == front;
    }
  }

  lemma ValuedAt(args: seq<string>, i: nat, o: ValueOption)
    requires i + 1 < |args| && args[i] == OptionName(o)
    ensures TokenAt(args, i) == Valued(o, args[i + 1]) && Width(args, i) == 2
  {
  }

  /** One pass of the argument loop of `main`: the tests in the source's
      order, returning the new settings (or the conversion failure that
      ends the program) and the next position. */
  method Step(args: seq<string>, i: nat, s: Settings) returns (r: Result<Settings, ArgError>, next: nat)
    requires i < |args|
    ensures next == i + Width(args, i)
    ensures r == Apply(s, TokenAt(args, i))
  {
    var a := args[i];
    var hasValue := i + 1 < |args|;
    next := i + 2;
    if a == "--mode" && hasValue {
      ValuedAt(args, i, ModeOpt);
      r := Ok(s.(mode := Some(args[i + 1])));
    } else if a == "--prompt" && hasValue {
      ValuedAt(args, i, PromptOpt);
      r := Ok(s.(prompt := Some(args[i + 1])));
    } else if a == "--model" && hasValue {
      ValuedAt(args, i, ModelOpt);
      r := Ok(s.(model := args[i + 1]));
    } else if a == "--resolution" && hasValue {
      ValuedAt(args, i, ResolutionOpt);
      r := Ok(s.(resolution := args[i + 1]));
    } else if a == "--duration" && hasValue {
      ValuedAt(args, i, DurationOpt);
      var n := ParseInt(args[i + 1]);
      r := if n.None? then Err(NotAnInteger(DurationOpt, args[i + 1])) else Ok(s.(duration := n.value));
    } else if a == "--fps" && hasValue {
      ValuedAt(args, i, FpsOpt);
      var n := ParseInt(args[i + 1]);
      r := if n.None? then Err(NotAnInteger(FpsOpt, args[i + 1])) else Ok(s.(fps := n.value));
    } else if a == "--seed" && hasValue {
      ValuedAt(args, i, SeedOpt);
      var n := ParseInt(args[i + 1]);
      r := if n.None? then Err(NotAnInteger(SeedOpt, args[i + 1])) else Ok(s.(seed := Some(n.value)));
    } else if a == "--image" && hasValue {
      ValuedAt(args, i, ImageOpt);
      r := Ok(s.(image := Some(args[i + 1])));
    } else if a == "--audio" && hasValue {
      ValuedAt(args, i, AudioOpt);
      r := Ok(s.(audio := Some(args[i + 1])));
    } else if a == "--output" && hasValue {
      ValuedAt(args, i, OutputOpt);
      r := Ok(s.(output := Some(args[i + 1])));
    } else if a == "--estimate" {
      r := Ok(s.(estimate := true));
      next := i + 1;
    } else {
      r := Ok(s);
      next := i + 1;
    }
  }

  /** One more step of the loop extends the visited tokens by the token at
      `i`; a failing step decides the whole parse. */
  lemma Advance(args: seq<string>, i: nat, done: seq<Token>, s: Settings,
                 step: Result<Settings, ArgError>, next: nat)
    requires i < |args| && next == i + Width(args, i)
    requires done + Tokens(args, i) == Tokens(args, 0)
    requires Fold(Defaults, done) == Ok(s)
    requires step == Apply(s, TokenAt(args, i))
    ensures (done + [TokenAt(args, i)]) + Tokens(args, next) == Tokens(args, 0)
    ensures Fold(Defaults, done + [TokenAt(args, i)]) == step
    ensures step.Err? ==> Fold(Defaults, Tokens(args, 0)) == step
  {
    var t := TokenAt(args, i);
    var rest := Tokens(args, next);
    assert Tokens(args, i) == [t] + rest;
    assert (done + [t]) + rest == done + ([t] + rest);
    FoldStep(Defaults, done, t);
    if step.Err? {
      FoldFailureSticks(Defaults, done + [t], rest);
    }
  }

  /** The argument loop of `main`: the settings it ends with, or the first
      conversion failure, are the fold of the tokens it visits. */
  method ParseArgs(args: seq<string>) returns (r: Result<Settings, ArgError>)
    ensures r == Fold(Defaults, Tokens(args, 0))
  {
    var s := Defaults;
    var i := 0;
    ghost var done: seq<Token> := [];
    while i < |args|
      invariant i <= |args|
      invariant done + Tokens(args, i) == Tokens(args, 0)
      invariant Fold(Defaults, done) == Ok(s)
      decreases |args| - i
    {
      var step, next := Step(args, i, s);
      Advance(args, i, done, s, step, next);
      if step.Err? {
        return Err(step.error);
      }
      s := step.value;
      done := done + [TokenAt(args, i)];
      i := next;
    }
    assert done == Tokens(args, 0);
    r := Ok(s);
  }

  // ----- what the fold computes --------------------------------------------

  /** The value of the last visited occurrence of option `o`. */
  function LastValue(toks: seq<Token>, o: ValueOption): Option<string>
    decreases |toks|
  {
    if toks == [] then None
    else match toks[|toks| - 1]
      case Valued(o', v) => if o' == o then Some(v) else LastValue(toks[..|toks| - 1], o)
      case _ => LastValue(toks[..|toks| - 1], o)
  }

  function Updated(last: Option<string>, prior: Option<string>): Option<string> {
    if last.Some? then last else prior
  }

  lemma ApplyText(s: Settings, t: Token)
    requires Apply(s, t).Ok?
    ensures var s2 := Apply(s, t).value;
            var v := if t.Valued? then Some(t.value) else None;
            && s2.mode == (if t.Valued? && t.opt == ModeOpt then v else s.mode)
            && s2.prompt == (if t.Valued? && t.opt == PromptOpt then v else s.prompt)
            && s2.model == (if t.Valued? && t.opt == ModelOpt then t.value else s.model)
            && s2.resolution == (if t.Valued? && t.opt == ResolutionOpt then t.value else s.resolution)
            && s2.image == (if t.Valued? && t.opt == ImageOpt then v else s.image)
            && s2.audio == (if t.Valued? && t.opt == AudioOpt then v else s.audio)
            && s2.output == (if t.Valued? && t.opt == OutputOpt then v else s.output)
  {
  }

  /** After a successful parse each text option holds the value of its last
      visited occurrence, or is untouched when it never occurs. */
  lemma {:induction false} FoldTextOptions(s: Settings, toks: seq<Token>)
    requires Fold(s, toks).Ok?
    ensures var st := Fold(s, toks).value;
            && st.mode == Updated(LastValue(toks, ModeOpt), s.mode)
            && st.prompt == Updated(LastValue(toks, PromptOpt), s.prompt)
            && st.model == Updated(LastValue(toks, ModelOpt), Some(s.model)).value
            && st.resolution == Updated(LastValue(toks, ResolutionOpt), Some(s.resolution)).value
            && st.image == Updated(LastValue(toks, ImageOpt), s.image)
            && st.audio == Updated(LastValue(toks, AudioOpt), s.audio)
            && st.output == Updated(LastValue(toks, OutputOpt), s.output)
    decreases |toks|
  {
    if toks != [] {
      FoldTextOptions(s, toks[..|toks| - 1]);
      ApplyText(Fold(s, toks[..|toks| - 1]).value, toks[|toks| - 1]);
    }
  }

  lemma ApplyNumbers(s: Settings, t: Token)
    requires Apply(s, t).Ok?
    ensures var s2 := Apply(s, t).value;
            && (t.Valued? && t.opt == DurationOpt ==> ParseInt(t.value) == Some(s2.duration))
            && (!(t.Valued? && t.opt == DurationOpt) ==> s2.duration == s.duration)
            && (t.Valued? && t.opt == FpsOpt ==> ParseInt(t.value) == Some(s2.fps))
            && (!(t.Valued? && t.opt == FpsOpt) ==> s2.fps == s.fps)
            && (t.Valued? && t.opt == SeedOpt ==> s2.seed.Some? && ParseInt(t.value) == s2.seed)
            && (!(t.Valued? && t.opt == SeedOpt) ==> s2.seed == s.seed)
  {
  }

  /** After a successful parse `--duration`, `--fps` and `--seed` hold the
      integer their last value converts to, or are untouched. */
  lemma {:induction false} FoldNumbers(s: Settings, toks: seq<Token>)
    requires Fold(s, toks).Ok?
    ensures var st := Fold(s, toks).value;
            && (LastValue(toks, DurationOpt).Some? ==> ParseInt(LastValue(toks, DurationOpt).value) == Some(st.duration))
            && (LastValue(toks, DurationOpt).None? ==> st.duration == s.duration)
            && (LastValue(toks, FpsOpt).Some? ==> ParseInt(LastValue(toks, FpsOpt).value) == Some(st.fps))
            && (LastValue(toks, FpsOpt).None? ==> st.fps == s.fps)
            && (LastValue(toks, SeedOpt).Some? ==> st.seed.Some? && ParseInt(LastValue(toks, SeedOpt).value) == st.seed)
            && (LastValue(toks, SeedOpt).None? ==> st.seed == s.seed)
    decreases |toks|
  {
    if toks != [] {
      FoldNumbers(s, toks[..|toks| - 1]);
      ApplyNumbers(Fold(s, toks[..|toks| - 1]).value, toks[|toks| - 1]);
    }
  }

  /** `--estimate` takes effect wherever it occurs. */
  lemma {:induction false} FoldEstimate(s: Settings, toks: seq<Token>)
    requires Fold(s, toks).Ok?
    ensures Fold(s, toks).value.estimate == (s.estimate || EstimateFlag in toks)
    decreases |toks|
  {
    if toks != [] {
      var front := toks[..|toks| - 1];
      assert toks == front + [toks[|toks| - 1]];
      FoldEstimate(s, front);
    }
  }

  /** A skipped token has no effect, wherever it stands. */
  lemma {:induction false} SkippedTokenIgnored(s: Settings, before: seq<Token>, text: string, after: seq<Token>)
    ensures Fold(s, before + [Skipped(text)] + after) == Fold(s, before + after)
    decreases |after|
  {
    if after == [] {
      assert before + [Skipped(text)] + after == before + [Skipped(text)];
      assert before + after == before;
      FoldStep(s, before, Skipped(text));
    } else {
      var a := after[..|after| - 1];
      var t := after[|after| - 1];
      assert before + [Skipped(text)] + after == (before + [Skipped(text)] + a) + [t];
      assert before + after == (before + a) + [t];
      SkippedTokenIgnored(s, before, text, a);
      FoldStep(s, before + [Skipped(text)] + a, t);
      FoldStep(s, before + a, t);
    }
  }

  // ----- dispatch after the parse -------------------------------------------

  datatype Command =
    | ShowUsage
    | MissingApiKey
    | TestConnection
    | ArgFailure(error: ArgError)
    | ShowEstimate(mode: string, model: string, resolution: string, duration: int, totalCents: int)
    | MissingMode
    | MissingPrompt
    | Generate(request: ScriptRequest.GenerateArgs)

  /** The arguments reach the parse: there are some, the key is set and
      the first argument is not `--test`. */
  predicate Parsed(args: seq<string>, apiKey: string) {
    args != [] && apiKey != "" && args[0] != "--test"
  }

  /** `main`: usage on no arguments, then the API-key check, then the test
      action, then the parse and what it selects. `apiKey` is the value of
      the key's environment variable, "" when unset. */
  function Run(args: seq<string>, apiKey: string): (c: Command)
    ensures args == [] <==> c == ShowUsage
    ensures args != [] && apiKey == "" <==> c == MissingApiKey
    ensures args != [] && apiKey != "" ==> (args[0] == "--test" <==> c == TestConnection)
    ensures c.ArgFailure? <==> Parsed(args, apiKey) && Fold(Defaults, Tokens(args, 0)).Err?
    ensures c.ArgFailure? ==> Fold(Defaults, Tokens(args, 0)) == Err(c.error)
    ensures c.ShowEstimate? <==>
              Parsed(args, apiKey) && Fold(Defaults, Tokens(args, 0)).Ok? && Fold(Defaults, Tokens(args, 0)).value.estimate
    ensures c == MissingMode <==>
              && Parsed(args, apiKey)
              && var s := Fold(Defaults, Tokens(args, 0));
              s.Ok? && !s.value.estimate && !StrTruthy(s.value.mode)
    ensures c == MissingPrompt <==>
              && Parsed(args, apiKey)
              && var s := Fold(Defaults, Tokens(args, 0));
              s.Ok? && !s.value.estimate && StrTruthy(s.value.mode) && !StrTruthy(s.value.prompt)
    ensures c.Generate? ==>
              && Parsed(args, apiKey)
              && var s := Fold(Defaults, Tokens(args, 0));
              && s.Ok? && !s.value.estimate && StrTruthy(s.value.mode) && StrTruthy(s.value.prompt)
              && c.request == ScriptRequest.GenerateArgs(
                   s.value.mode.value, s.value.prompt.value, s.value.model, s.value.resolution,
                   s.value.duration, s.value.fps, s.value.seed, s.value.image, s.value.audio,
                   s.value.output)
    ensures c.Generate? ==> c.request.mode != "" && c.request.prompt != ""
  {
    if args == [] then ShowUsage
    else if apiKey == "" then MissingApiKey
    else if args[0] == "--test" then TestConnection
    else
      match Fold(Defaults, Tokens(args, 0))
      case Err(e) => ArgFailure(e)
      case Ok(s) =>
        if s.estimate then
          var mode := if StrTruthy(s.mode) then s.mode.value else "t2v";
          ShowEstimate(mode, s.model, s.resolution, s.duration,
                       ScriptPricing.EstimateCost(s.model, s.resolution, s.duration))
        else if !StrTruthy(s.mode) then MissingMode
        else if !StrTruthy(s.prompt) then MissingPrompt
        else Generate(ScriptRequest.GenerateArgs(
          s.mode.value, s.prompt.value, s.model, s.resolution, s.duration, s.fps,
          s.seed, s.image, s.audio, s.output))
  }

  /** The estimate action prices the parsed model, resolution and duration,
      and stands in "t2v" for a missing mode. */
  lemma EstimateDefaultsMode(args: seq<string>, apiKey: string)
    requires Run(args, apiKey).ShowEstimate?
    ensures var c := Run(args, apiKey);
            var s := Fold(Defaults, Tokens(args, 0)).value;
            && s.estimate
            && c.mode == (if StrTruthy(s.mode) then s.mode.value else "t2v")
            && c.totalCents == ScriptPricing.EstimateCost(s.model, s.resolution, s.duration)
  {
  }

  /** Without `--mode`, or with an empty one, nothing is generated. */
  lemma NoModeNoGeneration(args: seq<string>, apiKey: string)
    requires args != [] && apiKey != "" && args[0] != "--test"
    requires Fold(Defaults, Tokens(args, 0)).Ok?
    requires LastValue(Tokens(args, 0), ModeOpt).None? || LastValue(Tokens(args, 0), ModeOpt) == Some("")
    requires !Fold(Defaults, Tokens(args, 0)).value.estimate
    ensures Run(args, apiKey) == MissingMode
  {
    FoldTextOptions(Defaults, Tokens(args, 0));
  }
}

=== FILE: script_pricing.dfy ===
/** The price table of `scripts/ltx_generate.py`. Unlike the top-level
    script it does not normalise the resolution and its fallback is two
    cents a second. Prices are whole US cents. */
module ScriptPricing {
  import RootPricing

  const FullHd := "1920x1080"
  const Qhd := "2560x1440"
  const Uhd := "3840x2160"

  /** Cents per second of video, by model and resolution. */
  const CostTable: map<string, map<string, nat>> := map[
    "ltx-2-fast" := map[FullHd := 2, Qhd := 4, Uhd := 8],
    "ltx-2-pro" := map[FullHd := 5, Qhd := 10, Uhd := 20]]

  /** Rate used when the model or the resolution string is not in the table. */
  const FallbackCents: nat := 2

  predicate Listed(model: string, resolution: string) {
    model in CostTable && resolution in CostTable[model]
  }

  /** `COST_TABLE.get(model, {}).get(resolution, 0.02)` in cents. */
  function Rate(model: string, resolution: string): (cents: nat)
    ensures Listed(model, resolution) ==> cents == CostTable[model][resolution]
    ensures !Listed(model, resolution) ==> cents == FallbackCents
  {
    if Listed(model, resolution) then CostTable[model][resolution] else FallbackCents
  }

  /** `estimate_cost`: the total for the whole duration, in cents, with the
      resolution looked up exactly as given. */
  function EstimateCost(model: string, resolution: string, duration: int): (totalCents: int)
    ensures Listed(model, resolution) ==> totalCents == CostTable[model][resolution] * duration
    ensures !Listed(model, resolution) ==> totalCents == FallbackCents * duration
  {
    Rate(model, resolution) * duration
  }

  /** An alias is not resolved: "4k" is not a table key, so even the pro
      model is priced at the fallback rate for it. */
  lemma AliasNotNormalised(duration: int)
    ensures EstimateCost("ltx-2-pro", "4k", duration) == 2 * duration
    ensures EstimateCost("ltx-2-pro", Uhd, duration) == 20 * duration
  {
    assert !Listed("ltx-2-pro", "4k");
  }

  /** The two scripts price a known model at a canonical resolution the
      same; they differ only in what they charge for anything else. */
  lemma TablesAgree(model: string, resolution: string)
    requires RootPricing.IsCanonical(resolution)
    ensures Listed(model, resolution) <==> model in RootPricing.CostPerSec
    ensures Listed(model, resolution) ==> Rate(model, resolution) == RootPricing.Rate(model, resolution)
    ensures !Listed(model, resolution) ==>
              Rate(model, resolution) == 2 && RootPricing.Rate(model, resolution) == 5
  {
  }

  /** The cost grows with the duration at a fixed, positive rate. */
  lemma CostMonotone(model: string, resolution: string, d1: int, d2: int)
    requires d1 <= d2
    ensures EstimateCost(model, resolution, d1) <= EstimateCost(model, resolution, d2)
    ensures EstimateCost(model, resolution, d2) - EstimateCost(model, resolution, d1) >= d2 - d1
  {
    var r := Rate(model, resolution);
    assert r >= 2;
    assert r * d2 - r * d1 == r * (d2 - d1);
  }
}

=== FILE: script_request.dfy ===
/** `generate` of `scripts/ltx_generate.py`: choose the endpoint and build
    the request data for a mode, check the media files, then follow the
    submission reply (directly or by polling) to a video URL and name the
    output file. The filesystem and the clock are inputs. */
module ScriptRequest {
  import opened Common
  import opened PyText
  import opened Multipart
  import opened ScriptApi
  import opened Polling
  import ScriptPricing

  const ProModel := "ltx-2-pro"
  const A2vResolution := "1920x1080"

  /** The arguments of `generate`. */
  datatype GenerateArgs = GenerateArgs(
    mode: string,
    prompt: string,
    model: string,
    resolution: string,
    duration: int,
    fps: int,
    seed: Option<int>,
    image: Option<string>,
    audio: Option<string>,
    outputDir: Option<string>)

  datatype GenError =
    | ImageRequired
    | ImageNotFound(imagePath: string)
    | AudioRequired
    | AudioNotFound(audioPath: string)
    | UnknownMode(mode: string)

  /** A file to upload: the files-dictionary key and the path to read. */
  datatype FileRef = FileRef(name: string, path: string)

  /** What `generate` submits, and the estimate it printed first. */
  datatype Plan = Plan(model: string, estimateCents: int, endpoint: string, data: seq<Field>, files: seq<FileRef>)

  /** The model actually used: audio mode always runs on the pro model. */
  function EffectiveModel(g: GenerateArgs): string {
    if g.mode == "a2v" && g.model != ProModel then ProModel else g.model
  }

  /** The data of a text or image request, in insertion order; the seed only
      when one was given (a seed of 0 included). */
  function VideoData(g: GenerateArgs): seq<Field> {
    [Field("prompt", Text(g.prompt)), Field("model", Text(g.model)), Field("resolution", Text(g.resolution)),
     Field("duration", Number(g.duration)), Field("fps", Number(g.fps))]
    + (if g.seed.Some? then [Field("seed", Number(g.seed.value))] else [])
  }

  /** The data of an audio request. */
  function AudioData(g: GenerateArgs): seq<Field> {
    [Field("prompt", Text(g.prompt)), Field("model", Text(ProModel)), Field("resolution", Text(A2vResolution))]
  }

  function Names(fields: seq<Field>): seq<string> {
    seq(|fields|, k requires 0 <= k < |fields| => fields[k].name)
  }

  /** The request part of `generate`. `existing` is the set of paths for
      which `os.path.exists` holds. */
  function PlanRequest(g: GenerateArgs, existing: set<string>): (r: Result<Plan, GenError>)
    ensures r.Ok? ==> r.value.model == EffectiveModel(g)
    ensures r.Ok? ==> r.value.estimateCents == ScriptPricing.EstimateCost(EffectiveModel(g), g.resolution, g.duration)
    ensures r == Err(UnknownMode(g.mode)) <==> ParseMode(g.mode).None?
    ensures g.mode == "t2v" ==> r.Ok? && r.value.files == []
    ensures g.mode == "i2v" ==>
              (r.Ok? <==> StrTruthy(g.image) && g.image.value in existing)
    ensures g.mode == "i2v" && r.Ok? ==> r.value.files == [FileRef("image", g.image.value)]
    ensures g.mode == "a2v" ==>
              (r.Ok? <==> StrTruthy(g.audio) && g.audio.value in existing)
  {
    var model := EffectiveModel(g);
    var est := ScriptPricing.EstimateCost(model, g.resolution, g.duration);
    if g.mode == "t2v" then
      Ok(Plan(model, est, "/generations/text-to-video", VideoData(g), []))
    else if g.mode == "i2v" then
      if !StrTruthy(g.image) then Err(ImageRequired)
      else if g.image.value !in existing then Err(ImageNotFound(g.image.value))
      else Ok(Plan(model, est, "/generations/image-to-video", VideoData(g), [FileRef("image", g.image.value)]))
    else if g.mode == "a2v" then
      if !StrTruthy(g.audio) then Err(AudioRequired)
      else if g.audio.value !in existing then Err(AudioNotFound(g.audio.value))
      else Ok(Plan(model, est, "/generations/audio-to-video", AudioData(g), [FileRef("audio", g.audio.value)]))
    else Err(UnknownMode(g.mode))
  }

  /** Audio mode: the pro model, priced at the caller's resolution and
      duration, and data of exactly prompt, model and resolution, the
      latter two fixed. */
  lemma AudioPlanFixed(g: GenerateArgs, existing: set<string>)
    requires g.mode == "a2v"
    requires PlanRequest(g, existing).Ok?
    ensures var p := PlanRequest(g, existing).value;
            && p.model == "ltx-2-pro"
            && p.estimateCents == ScriptPricing.EstimateCost("ltx-2-pro", g.resolution, g.duration)
            && Names(p.data) == ["prompt", "model", "resolution"]
            && p.data[0].value == Text(g.prompt)
            && p.data[1].value == Text("ltx-2-pro")
            && p.data[2].value == Text("1920x1080")
            && p.files == [FileRef("audio", g.audio.value)]
  {
  }

  /** Each mode posts to its own generation endpoint. */
  lemma PlanEndpoint(g: GenerateArgs, existing: set<string>)
    requires PlanRequest(g, existing).Ok?
    ensures PlanRequest(g, existing).value.endpoint ==
              if g.mode == "t2v" then "/generations/text-to-video"
              else if g.mode == "i2v" then "/generations/image-to-video"
              else "/generations/audio-to-video"
    ensures g.mode == "a2v" <==> PlanRequest(g, existing).value.endpoint == "/generations/audio-to-video"
  {
  }

  /** Text and image mode send prompt, model, resolution, duration and frame
      rate as given, and a seed exactly when one was supplied. */
  lemma VideoDataFields(g: GenerateArgs, existing: set<string>)
    requires g.mode == "t2v" || g.mode == "i2v"
    requires PlanRequest(g, existing).Ok?
    ensures var p := PlanRequest(g, existing).value;
            && p.model == g.model
            && Names(p.data) ==
                 ["prompt", "model", "resolution", "duration", "fps"] + (if g.seed.Some? then ["seed"] else [])
            && p.data[0].value == Text(g.prompt)
            && p.data[1].value == Text(g.model)
            && p.data[2].value == Text(g.resolution)
            && p.data[3].value == Number(g.duration)
            && p.data[4].value == Number(g.fps)
            && (g.seed.Some? ==> p.data[5].value == Number(g.seed.value))
  {
    var p := PlanRequest(g, existing).value;
    assert p.data == VideoData(g);
  }

  /** Missing or absent media is rejected before anything is sent. */
  lemma MediaChecked(g: GenerateArgs, existing: set<string>)
    ensures g.mode == "i2v" && !StrTruthy(g.image) ==> PlanRequest(g, existing) == Err(ImageRequired)
    ensures g.mode == "i2v" && StrTruthy(g.image) && g.image.value !in existing ==>
              PlanRequest(g, existing) == Err(ImageNotFound(g.image.value))
    ensures g.mode == "a2v" && !StrTruthy(g.audio) ==> PlanRequest(g, existing) == Err(AudioRequired)
    ensures g.mode == "a2v" && StrTruthy(g.audio) && g.audio.value !in existing ==>
              PlanRequest(g, existing) == Err(AudioNotFound(g.audio.value))
  {
  }

  /** The uploads `api_request` serialises: each planned file with the
      bytes read from its path. */
  function Attach(files: seq<FileRef>, read: string -> seq<Utf8.byte>): (us: seq<Upload>)
    ensures |us| == |files|
    ensures forall k :: 0 <= k < |files| ==>
              us[k] == Upload(files[k].name, files[k].path, read(files[k].path))
  {
    seq(|files|, k requires 0 <= k < |files| => Upload(files[k].name, files[k].path, read(files[k].path)))
  }

  /** Each planned file travels as its own part of the multipart body,
      after the data parts: under its key and the base name of its path,
      with exactly the bytes read from that path. */
  lemma UploadedFilePart(data: seq<Field>, files: seq<FileRef>, read: string -> seq<Utf8.byte>, k: nat)
    requires k < |files|
    ensures var parts := Parts(Boundary, data, Attach(files, read));
            && |parts| == |data| + |files|
            && parts[|data| + k] ==
                 Utf8.Encode(Delimiter(Boundary))
                 + Utf8.Encode(FileDisposition(files[k].name, Basename(files[k].path)))
                 + OctetStreamBytes + read(files[k].path) + Utf8.Encode(Crlf)
  {
    FilePartAt(Boundary, data, Attach(files, read), k);
  }

  /** How the submission travels: text mode posts JSON, image and audio mode
      post a multipart body. */
  lemma SubmissionEncoding(g: GenerateArgs, existing: set<string>, read: string -> seq<Utf8.byte>)
    requires PlanRequest(g, existing).Ok?
    ensures var p := PlanRequest(g, existing).value;
            var sent := Prepare(POST, p.data, Attach(p.files, read));
            && sent.0 == POST
            && (g.mode == "t2v" ==> sent.1 == JsonBody(p.data))
            && (g.mode != "t2v" ==> sent.1.MultipartBody?)
  {
  }

  // ----- after the submission --------------------------------------------

  /** How `generate` ends once the request is accepted. */
  datatype Finish =
    | Video(url: Json, result: map<string, Json>)
    | UnexpectedResponse(response: map<string, Json>)
    | NoVideoUrl
    | PollStopped(outcome: PollOutcome)

  /** A result with a usable `video_url`; any falsy value counts as none. */
  function VideoFrom(result: map<string, Json>): (f: Finish)
    ensures f.Video? || f == NoVideoUrl
    ensures f.Video? <==> Truthy(Get(result, "video_url", JNull))
    ensures f.Video? ==> f.url == result["video_url"] && f.result == result
  {
    var url := Get(result, "video_url", JNull);
    if Truthy(url) then Video(url, result) else NoVideoUrl
  }

  /** The submission's status, "processing" when it carries none. */
  function SubmitStatus(response: map<string, Json>): Json {
    Get(response, "status", JStr("processing"))
  }

  /** The response handling of `generate`: a completed submission is used
      as is; otherwise a job id leads to polling and no id is an error. */
  function HandleSubmission(response: map<string, Json>, replies: seq<ApiReply>, budget: nat): (f: Finish)
    requires budget <= |replies|
    ensures SubmitStatus(response) == JStr("completed") ==> f == VideoFrom(response)
    ensures SubmitStatus(response) != JStr("completed") && !Truthy(Get(response, "id", JNull)) ==>
              f == UnexpectedResponse(response)
    ensures SubmitStatus(response) != JStr("completed") && Truthy(Get(response, "id", JNull)) ==>
              match Poll(replies, budget)
              case Completed(result, _) => f == VideoFrom(result)
              case other => f == PollStopped(other)
  {
    var genId := Get(response, "id", JNull);
    if SubmitStatus(response) == JStr("completed") then VideoFrom(response)
    else if Truthy(genId) then
      match Poll(replies, budget)
      case Completed(result, _) => VideoFrom(result)
      case other => PollStopped(other)
    else UnexpectedResponse(response)
  }

  /** A submission without a status is not complete: with an id it is
      polled, without one it is an unexpected response. */
  lemma MissingStatusMeansProcessing(response: map<string, Json>, replies: seq<ApiReply>, budget: nat)
    requires budget <= |replies|
    requires "status" !in response
    ensures Truthy(Get(response, "id", JNull)) ==>
              (HandleSubmission(response, replies, budget).Video? <==>
                 Poll(replies, budget).Completed? && Truthy(Get(Poll(replies, budget).result, "video_url", JNull)))
    ensures !Truthy(Get(response, "id", JNull)) ==>
              HandleSubmission(response, replies, budget) == UnexpectedResponse(response)
  {
  }

  /** A video is only ever reported with a usable URL, which came from the
      submission itself or from the completed status reply. */
  lemma VideoHasUrl(response: map<string, Json>, replies: seq<ApiReply>, budget: nat)
    requires budget <= |replies|
    requires HandleSubmission(response, replies, budget).Video?
    ensures var f := HandleSubmission(response, replies, budget);
            && Truthy(f.url)
            && (f.result == response || exists j :: 0 <= j < budget && replies[j] == Answer(f.result))
  {
    var f := HandleSubmission(response, replies, budget);
    if SubmitStatus(response) != JStr("completed") {
      var o := Poll(replies, budget);
      assert replies[o.queries - 1] == Answer(f.result);
    }
  }

  // ----- the closing report ----------------------------------------------

  /** The end of `generate` once the video is downloaded: the cost line
      prints the reply's "cost" with `:.2f`, falling back to the estimate.
      That format takes a number (a boolean is a number in Python) and
      raises on anything else, so a cost sent as text or null ends the run
      with status 1 although the video is already saved. */
  datatype Report = EstimateReported | CostReported(cost: Json) | CostFormatCrash(cost: Json)

  predicate FormatsAsFixed(j: Json) {
    j.JNum? || j.JBool?
  }

  function Conclude(result: map<string, Json>): (r: Report)
    ensures r == EstimateReported <==> "cost" !in result
    ensures r.CostReported? ==> r.cost == result["cost"]
    ensures r.CostFormatCrash? <==> "cost" in result && !FormatsAsFixed(result["cost"])
  {
    if "cost" !in result then EstimateReported
    else if FormatsAsFixed(result["cost"]) then CostReported(result["cost"])
    else CostFormatCrash(result["cost"])
  }

  /** The exit status of a run that found its video. `downloaded` says
      whether `download_video` returned: it is false when the URL is not
      a usable URL string or the transfer fails, which raises past every
      handler and ends the run with status 1 before the cost line. */
  function ReportStatus(downloaded: bool, r: Report): (status: int)
    ensures status == 0 <==> downloaded && !r.CostFormatCrash?
    ensures status == 0 || status == 1
  {
    if !downloaded || r.CostFormatCrash? then 1 else 0
  }

  /** Whether the run that found a video exits cleanly: never when the
      download fails; otherwise it depends only on the "cost" the final
      reply carried: without one it succeeds, with one it succeeds exactly
      when the cost is a number or a boolean. */
  lemma FoundVideoStatus(response: map<string, Json>, replies: seq<ApiReply>, budget: nat, downloaded: bool)
    requires budget <= |replies|
    requires HandleSubmission(response, replies, budget).Video?
    ensures var result := HandleSubmission(response, replies, budget).result;
            && (!downloaded ==> ReportStatus(downloaded, Conclude(result)) == 1)
            && (downloaded && "cost" !in result ==> ReportStatus(downloaded, Conclude(result)) == 0)
            && (downloaded && "cost" in result ==>
                  (ReportStatus(downloaded, Conclude(result)) == 0 <==> FormatsAsFixed(result["cost"])))
  {
  }

  // ----- the saved file ----------------------------------------------------

  /** The directory the video goes to; `home` is the user's home directory. */
  function OutputDir(outputDir: Option<string>, home: string): string {
    if StrTruthy(outputDir) then outputDir.value else home + "/Desktop/cineclaw"
  }

  function OutputFileName(mode: string, model: string, timestamp: string): string {
    "output-" + mode + "-" + model + "-" + timestamp + ".mp4"
  }

  /** `os.path.join` of a directory and a relative file name (POSIX). */
  function JoinPath(dir: string, name: string): (path: string)
    ensures |name| < |path| || dir == []
    ensures dir == [] ==> path == name
    ensures dir != [] ==>
              && path[|path| - |name|..] == name
              && path[|path| - |name| - 1] == '/'
              && (path[..|path| - |name|] == dir || path[..|path| - |name|] == dir + "/")
    ensures dir != [] && dir[|dir| - 1] == '/' ==> path == dir + name
  {
    if dir == [] || dir[|dir| - 1] == '/' then dir + name else dir + "/" + name
  }

  /** Where `generate` writes the video. */
  function OutputPath(g: GenerateArgs, home: string, timestamp: string): string {
    JoinPath(OutputDir(g.outputDir, home), OutputFileName(g.mode, EffectiveModel(g), timestamp))
  }

  /** The saved file's name records the model actually used, so an audio
      run is always labelled with the pro model. */
  lemma AudioFileNamesProModel(g: GenerateArgs, home: string, timestamp: string)
    requires g.mode == "a2v"
    ensures var name := OutputFileName(g.mode, EffectiveModel(g), timestamp);
            name == "output-a2v-ltx-2-pro-" + timestamp + ".mp4"
  {
  }

  /** The output path ends with the file name, directly after a '/' unless
      the directory is empty. */
  lemma OutputPathEndsWithName(g: GenerateArgs, home: string, timestamp: string)
    ensures var name := OutputFileName(g.mode, EffectiveModel(g), timestamp);
            var path := OutputPath(g, home, timestamp);
            |name| <= |path| && path[|path| - |name|..] == name
  {
  }
}

=== FILE: utf8.dfy ===
/** Bytes and `str.encode()`, which the multipart serialiser uses to turn its
    text into bytes (UTF-8, Python's default). */
module Utf8 {

  newtype byte = x: int | 0 <= x < 256

  /** The UTF-8 encoding of one Unicode scalar value. */
  function EncodeChar(c: char): (r: seq<byte>)
    ensures 1 <= |r| <= 4
    ensures c as int < 0x80 <==> |r| == 1
    ensures c as int < 0x80 ==> r[0] as int == c as int
    ensures |r| == (if c as int < 0x80 then 1 else if c as int < 0x800 then 2
                    else if c as int < 0x1_0000 then 3 else 4)
    ensures |r| == 2 ==> 0xC0 <= r[0] < 0xE0
    ensures |r| == 3 ==> 0xE0 <= r[0] < 0xF0
    ensures |r| == 4 ==> 0xF0 <= r[0] < 0xF8
    ensures forall k :: 1 <= k < |r| ==> 0x80 <= r[k] < 0xC0
  {
    var n := c as int;
    if n < 0x80 then [n as byte]
    else if n < 0x800 then
      [(0xC0 + n / 0x40) as byte, (0x80 + n % 0x40) as byte]
    else if n < 0x1_0000 then
      [(0xE0 + n / 0x1000) as byte, (0x80 + (n / 0x40) % 0x40) as byte, (0x80 + n % 0x40) as byte]
    else
      [(0xF0 + n / 0x4_0000) as byte, (0x80 + (n / 0x1000) % 0x40) as byte,
       (0x80 + (n / 0x40) % 0x40) as byte, (0x80 + n % 0x40) as byte]
  }

  /** The code point a well-formed UTF-8 sequence of one to four bytes
      stands for: the payload bits of the lead byte followed by six bits
      from each continuation byte. */
  function DecodeChar(bs: seq<byte>): int
    requires 1 <= |bs| <= 4
  {
    if |bs| == 1 then bs[0] as int
    else if |bs| == 2 then (bs[0] as int - 0xC0) * 0x40 + (bs[1] as int - 0x80)
    else if |bs| == 3 then
      (bs[0] as int - 0xE0) * 0x1000 + (bs[1] as int - 0x80) * 0x40 + (bs[2] as int - 0x80)
    else
      (bs[0] as int - 0xF0) * 0x4_0000 + (bs[1] as int - 0x80) * 0x1000
        + (bs[2] as int - 0x80) * 0x40 + (bs[3] as int - 0x80)
  }

  /** Decoding the bytes of a character gives back its code point. */
  lemma DecodeEncodeChar(c: char)
    ensures DecodeChar(EncodeChar(c)) == c as int
  {
    var n := c as int;
    var r := EncodeChar(c);
    if n < 0x80 {
    } else if n < 0x800 {
      assert n == (n / 0x40) * 0x40 + n % 0x40;
    } else if n < 0x1_0000 {
      assert n / 0x40 == (n / 0x1000) * 0x40 + (n / 0x40) % 0x40;
      assert n == (n / 0x40) * 0x40 + n % 0x40;
    } else {
      assert n / 0x1000 == (n / 0x4_0000) * 0x40 + (n / 0x1000) % 0x40;
      assert n / 0x40 == (n / 0x1000) * 0x40 + (n / 0x40) % 0x40;
      assert n == (n / 0x40) * 0x40 + n % 0x40;
    }
  }

  /** Distinct characters never share an encoding. */
  lemma EncodeCharInjective(c: char, d: char)
    requires EncodeChar(c) == EncodeChar(d)
    ensures c == d
  {
    DecodeEncodeChar(c);
    DecodeEncodeChar(d);
  }

  /** `s.encode()` */
  function Encode(s: string): (r: seq<byte>)
    ensures |r| >= |s|
  {
    if s == [] then [] else EncodeChar(s[0]) + Encode(s[1..])
  }

  predicate IsAscii(s: string) {
    forall k :: 0 <= k < |s| ==> s[k] as int < 0x80
  }

  /** Encoding distributes over concatenation. */
  lemma {:induction false} EncodeAppend(a: string, b: string)
    ensures Encode(a + b) == Encode(a) + Encode(b)
    decreases |a|
  {
    if a != [] {
      assert (a + b)[0] == a[0];
      assert (a + b)[1..] == a[1..] + b;
      EncodeAppend(a[1..], b);
    } else {
      assert a + b == b;
    }
  }

  /** ASCII text encodes to one byte per character, with the same code. */
  lemma {:induction false} EncodeAscii(s: string)
    requires IsAscii(s)
    ensures |Encode(s)| == |s|
    ensures forall k :: 0 <= k < |s| ==> Encode(s)[k] as int == s[k] as int
    decreases |s|
  {
    if s != [] {
      assert IsAscii(s[1..]) by {
        forall k | 0 <= k < |s| - 1
          ensures s[1..][k] as int < 0x80
        {
          assert s[1..][k] == s[k + 1];
        }
      }
      EncodeAscii(s[1..]);
    }
  }
}
